=== FILE: README.md ===
# logdag core, modelled in Dafny

logdag builds causal DAGs from system logs and SNMP metrics. A run is cut
into analysis units: a time window plus a network area. For each unit, the
event loaders pull the time series of every event in the area. Each log
event's timestamps pass through an ordered filter pipeline. The surviving
series become the columns of one input table. An event-definition registry
records which event each column's integer id stands for.

This project models that core as pure functions over immutable values.

| file | module | what it models |
|---|---|---|
| `wrappers.dfy` | `Wrappers` | `Option` and `Result`, which stand for Python's exceptions |
| `strings.dfy` | `Strings` | `split`, `join`, `rstrip`, line iteration of a text file, `str(int)` and two-digit fields |
| `seqs.dfy` | `Seqs` | list comprehensions as maps and filters, `set(...)` as first-occurrence dedup, `sum`, `list.index`/`pop` |
| `time_format.dfy` | `TimeFormat` | integer-second timestamps, `is_intdate`, `%Y%m%d[_%H%M%S]` and `shortstr2dt` |
| `event_definitions.dfy` | `EventDefinitions` | `EventDefinitionMap`: `_next_eid`, `add_evdef`, lookups, `get_str` |
| `log2event.dfy` | `Log2Event` | `AreaTest`, the SNMP name codec, binarize, event selection, `makeinput` |
| `arguments.dfy` | `Arguments` | `all_terms`/`all_args`, `jobname`/`jobname2args`, the list queries, `dump`/`load`, the artifact paths |
| `evgen_log.dfy` | `EvgenLog` | `LogEventDefinition.key`/`tags`, the loader's construction checks, `_apply_filter`, `read` |

Collaborators the core calls but does not define are parameters:

- **Filters.** `run(method, l_dt, ev)` stands for the filter functions of `filter_log`.
- **Rule names.** The set `functions` stands for `filter_log.FUNCTIONS`.
- **Areas and hosts.** `ingroup` stands for the area-definition table, and `hosts` for `LogData.whole_host`.
- **Loading.** `load` and `groupOf` stand for the loaders' `load` and `label`.
- **Calendar.** A `Calendar` renders and parses the `%Y%m%d` part of a date. `ValidCalendar` states what the model needs of it: the rendering is all digits, and parsing a rendering gives the day back.

Python exceptions are `None` or `Failure`:

- a `KeyError` on an unknown id;
- the `ValueError` of an unpacking split;
- `NotImplementedError` for an unknown source;
- the `AttributeError` of an unbound area test;
- the `AssertionError` of an unknown filter rule (`AssertionFailed`);
- the `ValueError` of `pd.concat` over no columns;
- a failed `mkdir`.

Behaviours of the code worth knowing:

- **No deduplication.** `add_evdef` does not deduplicate. Registering a descriptor twice gives it a second, fresh id. The reverse map then points at the newer id, and the maps stop being inverses (`EventDefinitions.AddEvdefConsistent`, `EventDefinitions.RegisteredConsistent`).
- **No gap filling.** `_next_eid` starts its search at the registry's size, not at 0. It does not fill gaps below the size.
- **`"each"` is appended, not replaced in place.** The `"each"` area is removed, first occurrence only, and the `host_<h>` areas are appended at the end of the area list.
- **Area test.** `AreaTest` binds a test method only for the rule `"all"`. Every other rule makes `test` raise.
- **Empty `makeinput`.** `makeinput` with no selected events fails, because `pd.concat([])` raises.
- **SNMP event names.** SNMP events are registered under `measure_key`, while the SNMP codec splits names at `@`. A registered name decodes exactly when measure and key together hold one `@`, so it never decodes when neither holds `@` (`Log2Event.SnmpEventNameDecodes`, `Log2Event.SnmpEventNameNotDecodable`).

## Model

| member | source | states |
|---|---|---|
| EventDefinitions.NextEid | logdag/log2event.py:45-50 | the id is unused, at least the registry's size, and every id from the size up to it is taken |
| EventDefinitions.AddEvdef | logdag/log2event.py:60-64 | the new id is `_next_eid`; `evdef`/`get_eid` map it and the descriptor to each other; the size grows by one; earlier ids and other descriptors' ids are unchanged |
| EventDefinitions.Evdef | logdag/log2event.py:72-73 | a lookup succeeds exactly for ids in the forward map |
| EventDefinitions.GetEid | logdag/log2event.py:99-100 | a lookup succeeds exactly for descriptors in the reverse map |
| EventDefinitions.AddEvdefConsistent | logdag/log2event.py:60-64 | on inverse maps, registration keeps them inverse exactly when the descriptor is new |
| EventDefinitions.Registered | logdag/log2event.py:35-64 | registering from empty hands out ids 0, 1, 2, … in order; id i names the i-th descriptor and the ids are exactly 0..n-1 |
| EventDefinitions.RegisteredReverse | logdag/log2event.py:60-64 | after registering from empty, the reverse map knows exactly the registered descriptors, each at its last registration |
| EventDefinitions.RegisteredConsistent | logdag/log2event.py:60-64 | registering from empty gives inverse maps exactly when the descriptors are pairwise distinct |
| EventDefinitions.EvdefStr | logdag/log2event.py:78-79 | rendering succeeds exactly for known ids and renders that id's descriptor |
| EventDefinitions.GetStr | logdag/log2event.py:81-85 | `get_str` is `[source=…, host=…, key=…, group=…]`, fields in `EVDEF_KEYS` order, and the rendering of a comma-free descriptor parses back to it |
| EventDefinitions.GetStrInjective | logdag/log2event.py:81-85 | comma-free descriptors render alike exactly when they are equal |
| Log2Event.NewAreaTest | logdag/log2event.py:123-128 | the test keeps its configured rule, and a test method is bound exactly for the rule `"all"`, where it is `_test_all` |
| Log2Event.Test | logdag/log2event.py:139-140 | a test answers exactly when a test method was bound |
| Log2Event.AreaTestByRule | logdag/log2event.py:127-131 | rule `"all"` accepts every host; any other rule fails every test |
| Log2Event.TestEachIsEquality | logdag/log2event.py:133-134 | `_test_each` accepts exactly the host equal to the area |
| Log2Event.SnmpTagToName | logdag/log2event.py:208-209 | the name holds one `@` more than measure and key together, and decodes back to them when they hold none |
| Log2Event.SnmpNameToTag | logdag/log2event.py:212-214 | decoding succeeds exactly when the name holds one `@`, and neither part holds `@` |
| Log2Event.SnmpNameTagRoundTrip | logdag/log2event.py:208-214 | encoding then decoding returns the measure and key when neither holds `@` |
| Log2Event.SnmpTagNameRoundTrip | logdag/log2event.py:208-214 | every decodable name is the encoding of its decoding |
| Log2Event.SnmpEventNameDecodes | logdag/log2event.py:237 | the `measure_key` name of an SNMP event decodes exactly when measure and key together hold one `@` |
| Log2Event.SnmpEventNameNotDecodable | logdag/log2event.py:237 | the `measure_key` names of SNMP events never decode when neither the measure nor the key holds `@` |
| Log2Event.Binarize | logdag/log2event.py:180-181 | positive cells become 1, others are unchanged, the length is kept |
| Log2Event.BinarizeIdempotent | logdag/log2event.py:234-235 | binarizing twice equals binarizing once |
| Log2Event.BinarizeBinary | logdag/log2event.py:234-235 | a 0/1 column is left unchanged |
| Log2Event.BinarizeCounts | logdag/log2event.py:177-181 | binarized counts are 0/1 and sum to zero exactly when the counts do, so the empty-column skip agrees before and after |
| Log2Event.SumOfCounts | logdag/log2event.py:231-233 | a column of counts sums to zero exactly when every count is zero |
| Log2Event.SelectEvents | logdag/log2event.py:227-238 | selection fails exactly when some condition must be tested and no test method is bound; it never yields more events than conditions |
| Log2Event.SelectEventsIsFilterMap | logdag/log2event.py:171-181 | selection is the kept conditions (in area, loaded, non-zero), in enumeration order, each turned into its event |
| Log2Event.AllEvents | logdag/log2event.py:241-247 | gathering fails exactly when some configured source is unknown or fails to load |
| Log2Event.AllEventsSingle | logdag/log2event.py:253-256 | one source contributes exactly its loaded events, in the order they are yielded, each tagged with the source |
| Log2Event.AllEventsAppend | logdag/log2event.py:253-256 | gathering over two lists of sources is the first list's events followed by the second's, so sources keep their configured order |
| Log2Event.MakeInput | logdag/log2event.py:250-263 | succeeds exactly when every source loads and some event exists; the k-th loaded event gets id k, labels column k and is registered as its descriptor |
| Arguments.AllTerms | logdag/arguments.py:228-237 | the sweep is empty exactly when top ≥ end; it starts at top, each start is `diff` after the previous, each window is `term` long and starts before the end, and the start after the last is not before the end |
| Arguments.AllTermsWindows | logdag/arguments.py:228-237 | window i is `(top + i·diff, top + i·diff + term)`, and top + n·diff is not before the end |
| Arguments.AllTermsCount | logdag/arguments.py:228-237 | the sweep has ⌈(end − top)/diff⌉ windows, none when top ≥ end |
| Arguments.ExpandAreas | logdag/arguments.py:217-221 | without `"each"` the areas are unchanged; with it, its first occurrence is removed and one `host_<h>` per host is appended |
| Arguments.UnitsOfRangesMembers | logdag/arguments.py:213-225 | a unit is generated exactly when its window is swept and its area is in that window's expanded list |
| Arguments.UnitsOfRangesAt | logdag/arguments.py:213-225 | without `"each"`, with A areas, unit i·A + j is window i with area j |
| Arguments.UnitsOfRangesLength | logdag/arguments.py:217-223 | without `"each"`, there are A units for each swept window |
| Arguments.AllArgs | logdag/arguments.py:205-225 | a unit is produced exactly when its window is one of the `unit_term`/`unit_diff` sweep's and its area is in that window's expanded area list |
| Arguments.JobNameParsesBack | logdag/arguments.py:84-93 | the name of a unit whose area has no `_` parses back to the unit under the `unit_term` its window has |
| Arguments.DtFilenameForm | logdag/arguments.py:85-90 | the start-time part holds a `_`, i.e. carries a time, exactly when the window's ends are not both whole dates |
| Arguments.JobNameToArgs | logdag/arguments.py:96-101 | a parsed unit's area has no `_` and its window is `unit_term` long |
| Arguments.DtFilenameRoundTrip | logdag/arguments.py:85-90 | the time part of a job name reads back to the window's start |
| Arguments.JobNameRoundTrip | logdag/arguments.py:84-101 | a job name parses back to its unit exactly when the area has no `_` and the window is `unit_term` long |
| Arguments.HostAreaNameNotRecovered | logdag/arguments.py:218-221 | names of `host_<h>` units parse to area `host` or fail |
| Arguments.JobNameIgnoresEnd | logdag/arguments.py:84-93 | the name depends only on area, start and whether the end is a whole date |
| Arguments.ArgsInArea | logdag/arguments.py:51-52 | exactly the units of the area |
| Arguments.ArgsInTime | logdag/arguments.py:54-55 | exactly the units of the window |
| Arguments.ArgsFromTime | logdag/arguments.py:57-61 | exactly the units whose window satisfies start ≤ t < end |
| Arguments.QueriesKeepMultiplicity | logdag/arguments.py:51-61 | each query keeps every occurrence of a matching unit, duplicates included, and no occurrence of any other unit |
| Arguments.QueriesKeepOrder | logdag/arguments.py:51-61 | each query of a concatenation is the concatenation of the queries, so list order is kept |
| Arguments.Areas | logdag/arguments.py:48-49 | exactly the areas of the units |
| Arguments.IterDtRange | logdag/arguments.py:177-181 | each window of the list exactly once |
| Arguments.Dump | logdag/arguments.py:72-74 | when no area holds a line break, the text read back line by line and right-stripped is exactly the units' names, one per unit |
| Arguments.LoadParses | logdag/arguments.py:76-81 | loading fails exactly when some right-stripped line is not a job name; otherwise one unit per line, each with a `_`-free area and a `unit_term` window |
| Arguments.ParseNames | logdag/arguments.py:79-81 | parsing fails exactly when some name fails; otherwise unit i is name i's parse |
| Arguments.DumpLoadRoundTrip | logdag/arguments.py:72-81 | for areas without line breaks, loading a dumped list returns it exactly when every area has no `_` and every window is `unit_term` long |
| Arguments.ArgsPath | logdag/arguments.py:18-25 | the name list is the file `args` directly under the output root: the part after the root is `args`, with no `/` and no `_` |
| Arguments.ArgsFileApartFromUnits | logdag/arguments.py:18-25 | the name list's path is never a unit's directory, nor its `dag_path` or `evdef_path` |
| Arguments.DagPath | logdag/arguments.py:107-120 | fails exactly when the unit's directory cannot be made; otherwise the path lies under the output root, ends in the file `dag.<ext>`, and its directory part parses back to the unit when the area has no `_` |
| Arguments.EvdefPath | logdag/arguments.py:122-132 | fails exactly when the unit's directory cannot be made; otherwise the path lies under the output root, ends in the file `evdef.pickle`, and its directory part parses back to the unit when the area has no `_` |
| Arguments.DagApartFromEvdef | logdag/arguments.py:107-132 | a unit's DAG file and its event-definition file are different paths, whatever the DAG's extension |
| Arguments.PathsKeyedByJobName | logdag/arguments.py:107-132 | `evdef_path` and `dag_path` are the job name's directory under the output root; units share them exactly when they share a name |
| Arguments.DistinctUnitsDistinctPaths | logdag/arguments.py:122-132 | distinct units with `_`-free areas and `unit_term` windows never share an artifact directory |
| EvgenLog.Key | logdag/source/evgen_log.py:29-30 | the key is a decimal numeral that reads back to the template id |
| EvgenLog.KeyInjective | logdag/source/evgen_log.py:29-30 | two descriptors share a key exactly when they share the template id |
| EvgenLog.Tags | logdag/source/evgen_log.py:32-34 | exactly the tags `host` and `key`, holding the host and the id's key |
| EvgenLog.Series | logdag/source/evgen_log.py:36-37 | the series lives in `log_feature` under the event's tags |
| EvgenLog.SeriesIdentifiesEvent | logdag/source/evgen_log.py:32-37 | two descriptors share a series exactly when they share host and template id |
| EvgenLog.NewLoader | logdag/source/evgen_log.py:43-66 | construction succeeds exactly for the `amulog` source, known rule names and the `influx` store; a wrong source fails first, then an unknown rule |
| EvgenLog.ApplyFilter | logdag/source/evgen_log.py:79-92 | with no rules the input is returned; any result is the input itself or non-empty |
| EvgenLog.ApplyFilterAllPass | logdag/source/evgen_log.py:80-83 | when every rule passes on a non-empty sequence, the result is the rules composed left to right |
| EvgenLog.ApplyFilterStops | logdag/source/evgen_log.py:84-91 | at the first rule that passes nothing on, a failing `sizetest` returns the original input and anything else drops the event |
| EvgenLog.LaterRulesNotRun | logdag/source/evgen_log.py:84-91 | rules after the stopping one never affect the result |
| EvgenLog.ReadEvent | logdag/source/evgen_log.py:101-125 | at most two records, all about the event, none for an event without timestamps or in a dry run; a raw record holds the loaded timestamps and needs `dump_org`, a feature record holds the pipeline's output |
| EvgenLog.Read | logdag/source/evgen_log.py:97-117 | at most two records per event, each about one of the events read |
| EvgenLog.ReadDry | logdag/source/evgen_log.py:119-121 | a dry `read` writes nothing |
| EvgenLog.ReadMembers | logdag/source/evgen_log.py:101-117 | `read` writes exactly the records of the single events |
| EvgenLog.ReadFeatureRecords | logdag/source/evgen_log.py:101-117 | a feature record is written for an event exactly when its raw timestamps are non-empty and the pipeline keeps them |
| EvgenLog.ReadOrgRecords | logdag/source/evgen_log.py:104-112 | raw timestamps are written exactly when `dump_org` is set and they are non-empty |
| Strings.SplitJoin | logdag/log2event.py:212-213 | splitting a join of separator-free pieces returns the pieces |
| Strings.ReadBackJoinedLines | logdag/arguments.py:74-80 | reading the lines of a `\n`-joined list and right-stripping each returns the list, for non-empty one-line names without trailing space |
| TimeFormat.ShortStrToDtParts | logdag/arguments.py:98 | a date-only string fails exactly when the date does not parse and otherwise names that day's midnight; a date and time joined by `_` name the second whose day and time of day are the parsed parts |
| TimeFormat.ShortStrOfDateTime | logdag/arguments.py:90 | the date-time rendering reads back to the same second |
| TimeFormat.ShortStrOfDate | logdag/arguments.py:87-88 | the date rendering reads back to the day's midnight, which is the start exactly when it is a whole date |

## Left out

- **Slide and radius binning.** These discretizations (`discretize_slide`, `discretize_radius`) live in `dtutil`, which is not part of this model. So does the pandas frame handling around them. Only the sequential path is modelled, and it assumes the loader already returns one binned column per event.
- **The event store and the log database.** `influx.py` and the amulog source are I/O. Writes are modelled as the list of records `read` would send. The loaders' `iter_event`, `load` and `label` are parameters.
- **Persistence and the filesystem.** Pickled registries, `mkdir` and file I/O are left out. Only the formats are modelled: the name-list text and the path strings. A failing `mkdir` is a boolean parameter.
- **Code that refers to definitions outside the model.** `EventDefinitionMap.dump`/`load` call `ArgumentManager.evdef_filepath`, which is not defined. The `EventDefinition` base class and `SRCCLS_LOG` are also not part of this model. So `LogEventDefinition.source` is a plain string, and `__str__` is not modelled.
- **Presentation and dispatch.** `show`, `evdef_detail`, `evdef_detail_org`, `evdef_instruction`, `instruction`, `iter_evdef` of the loader, `init_evloader(s)`, `read_all` and `all_feature` are output formatting or plain delegation.
- **The configuration handle.** It is not part of a unit. Every unit of a run carries the same handle.
- **Sweeps that never end.** `Arguments.AllTerms` requires a positive step or an empty sweep. With `diff <= 0` and a non-empty whole term (`top < end`), the source loop never terminates.
- Arguments.DumpLoadRoundTrip: stated only for areas without line breaks. An area such as `"a\nb"` splits its name over two lines, so the list does not load back even though the area has no `_`.
- Log2Event.Binarize: column cells are real numbers. NaN, which pandas' `sum` skips and `df > 0` leaves unchanged, is not modelled.
- **Date rendering.** The `%Y%m%d` rendering is abstract (`Calendar`). `shortstr2dt` is taken to be its inverse, because `dtutil` is not part of this model.
- **Disabled assertions.** `EvgenLog.NewLoader` treats the rule-name `assert` as always on. Under `python -O` it is skipped.
- **Filter context.** The window that `_apply_filter` passes to each filter is captured in `run`, not passed separately.
- **Loader construction inside `load_event_log_all`.** `read` is modelled for a constructed loader. Its source window (`source.dt_range`) is part of the `load` parameter.

=== FILE: arguments.dfy ===
/** The job partitioner (`arguments`): the sliding-window sweep of the whole
    observation term, the expansion of areas into analysis units, the job
    name of a unit and its parser, the list queries of `ArgumentManager`,
    the newline-separated name-list file, and the artifact paths. */
module Arguments {
  import opened Wrappers
  import opened Strings
  import opened Seqs
  import opened TimeFormat

  /** A half-open time range `(start, end)`: `start <= t < end`. */
  datatype Range = Range(start: Time, end: Time)

  /** An analysis unit `(conf, dt_range, area)`. Every unit of a run carries
      the same configuration handle, so it is not part of the model. */
  datatype Unit = Unit(range: Range, area: string)

  // ----------------------------------------------------------------- sweep

  /** `all_terms`: windows of width `term`, the first starting at `top`
      and each starting `diff` seconds after the one before, while the
      start is before `wEnd`. A step that is not positive never terminates
      unless the sweep is empty. */
  function AllTerms(top: Time, wEnd: Time, term: int, diff: int): (r: seq<Range>)
    requires diff > 0 || top >= wEnd
    ensures |r| == 0 <==> top >= wEnd
    ensures |r| > 0 ==> r[0].start == top
    ensures forall i :: 0 <= i < |r| ==> r[i].end == r[i].start + term && r[i].start < wEnd
    ensures forall i :: 0 < i < |r| ==> r[i].start == r[i - 1].start + diff
    ensures |r| > 0 ==> r[|r| - 1].start + diff >= wEnd
    decreases wEnd - top
  {
    if top < wEnd then [Range(top, top + term)] + AllTerms(top + diff, wEnd, term, diff)
    else []
  }

  lemma StepMul(diff: int, i: int)
    ensures diff + (i - 1) * diff == i * diff
  {
  }

  lemma {:induction false} StartsAt(r: seq<Range>, top: Time, diff: int, i: nat)
    requires i < |r| && r[0].start == top
    requires forall j :: 0 < j < |r| ==> r[j].start == r[j - 1].start + diff
    ensures r[i].start == top + i * diff
    decreases i
  {
    if i > 0 {
      StartsAt(r, top, diff, i - 1);
      StepMul(diff, i);
    }
  }

  lemma StartsAtAll(r: seq<Range>, top: Time, diff: int)
    requires |r| > 0 ==> r[0].start == top
    requires forall j :: 0 < j < |r| ==> r[j].start == r[j - 1].start + diff
    ensures forall i :: 0 <= i < |r| ==> r[i].start == top + i * diff
  {
    forall i | 0 <= i < |r|
      ensures r[i].start == top + i * diff
    {
      StartsAt(r, top, diff, i);
    }
  }

  lemma WindowsFromStarts(r: seq<Range>, top: Time, term: int, diff: int)
    requires forall i :: 0 <= i < |r| ==> r[i].start == top + i * diff
    requires forall i :: 0 <= i < |r| ==> r[i].end == r[i].start + term
    ensures forall i :: 0 <= i < |r| ==> r[i] == Range(top + i * diff, top + i * diff + term)
  {
  }

  /** Window i of the sweep is `(top + i·diff, top + i·diff + term)`, and
      the start after the last window is not before `wEnd`. */
  lemma AllTermsWindows(top: Time, wEnd: Time, term: int, diff: int)
    requires diff > 0
    ensures var r := AllTerms(top, wEnd, term, diff);
            && (forall i :: 0 <= i < |r| ==> r[i] == Range(top + i * diff, top + i * diff + term))
            && top + |r| * diff >= wEnd
  {
    var r := AllTerms(top, wEnd, term, diff);
    StartsAtAll(r, top, diff);
    WindowsFromStarts(r, top, term, diff);
    if |r| > 0 {
      StartsAt(r, top, diff, |r| - 1);
      StepMul(diff, |r|);
    }
  }

  lemma DivisionByBounds(x: int, d: int, n: int)
    requires d > 0 && n * d <= x < (n + 1) * d
    ensures x / d == n
  {
    var q, r := x / d, x % d;
    var k := q - n;
    assert x == q * d + r && 0 <= r < d;
    assert k * d == q * d - n * d;
    assert -d < k * d < d;
    assert k >= 1 ==> k * d >= d;
    assert k <= -1 ==> k * d <= -d;
  }

  /** The sweep yields ceil((wEnd - top) / diff) windows. */
  lemma AllTermsCount(top: Time, wEnd: Time, term: int, diff: int)
    requires diff > 0
    ensures |AllTerms(top, wEnd, term, diff)| == if top < wEnd then (wEnd - top + diff - 1) / diff else 0
  {
    var r := AllTerms(top, wEnd, term, diff);
    var n := |r|;
    AllTermsWindows(top, wEnd, term, diff);
    if top < wEnd {
      assert r[n - 1].start == top + (n - 1) * diff < wEnd;
      assert (n - 1) * diff + diff == n * diff;
      assert (n + 1) * diff == n * diff + diff;
      DivisionByBounds(wEnd - top + diff - 1, diff, n);
    }
  }

  // ------------------------------------------------------------- all_args

  /** `"host_" + h` for each host, in order. */
  function HostAreas(hosts: seq<string>): (r: seq<string>)
    ensures |r| == |hosts|
    ensures forall j :: 0 <= j < |hosts| ==> r[j] == "host_" + hosts[j]
  {
    Map(hosts, h => "host_" + h)
  }

  /** The area list of one window: when `"each"` is configured, its first
      occurrence is removed and one `host_<h>` area per host active in the
      window is appended at the end. */
  function ExpandAreas(areas: seq<string>, hosts: seq<string>): (r: seq<string>)
    ensures "each" !in areas ==> r == areas
    ensures "each" in areas ==>
              && |r| == |areas| - 1 + |hosts|
              && r[..|areas| - 1] == RemoveFirst(areas, "each")
              && r[|areas| - 1..] == HostAreas(hosts)
  {
    if "each" in areas then RemoveFirst(areas, "each") + HostAreas(hosts) else areas
  }

  /** One unit per area of the list, in list order. */
  function UnitsOf(rg: Range, areas: seq<string>): (r: seq<Unit>)
    ensures |r| == |areas|
    ensures forall j :: 0 <= j < |areas| ==> r[j] == Unit(rg, areas[j])
  {
    Map(areas, a => Unit(rg, a))
  }

  lemma UnitsOfMembers(rg: Range, areas: seq<string>, u: Unit)
    ensures u in UnitsOf(rg, areas) <==> u.range == rg && u.area in areas
  {
    if u.range == rg && u.area in areas {
      var j :| 0 <= j < |areas| && areas[j] == u.area;
      assert UnitsOf(rg, areas)[j] == u;
    }
  }

  /** The units of each window in turn; `hosts` is the log source's
      `whole_host` enumeration for a window. */
  function UnitsOfRanges(rs: seq<Range>, areas: seq<string>, hosts: Range -> seq<string>): seq<Unit>
  {
    if |rs| == 0 then []
    else UnitsOf(rs[0], ExpandAreas(areas, hosts(rs[0]))) + UnitsOfRanges(rs[1..], areas, hosts)
  }

  /** `all_args`: the sweep of `unit_term` windows every `unit_diff`
      seconds, each expanded into its units. */
  function AllArgs(top: Time, wEnd: Time, term: int, diff: int, areas: seq<string>,
                   hosts: Range -> seq<string>): (r: seq<Unit>)
    requires diff > 0 || top >= wEnd
    ensures var rs := AllTerms(top, wEnd, term, diff);
            forall u :: u in r <==>
              exists i :: 0 <= i < |rs| && u.range == rs[i] && u.area in ExpandAreas(areas, hosts(rs[i]))
  {
    UnitsOfRangesMembersAll(AllTerms(top, wEnd, term, diff), areas, hosts);
    UnitsOfRanges(AllTerms(top, wEnd, term, diff), areas, hosts)
  }

  lemma UnitsOfRangesMembersAll(rs: seq<Range>, areas: seq<string>, hosts: Range -> seq<string>)
    ensures forall u :: u in UnitsOfRanges(rs, areas, hosts) <==>
              exists i :: 0 <= i < |rs| && u.range == rs[i] && u.area in ExpandAreas(areas, hosts(rs[i]))
  {
    forall u {
      UnitsOfRangesMembers(rs, areas, hosts, u);
    }
  }

  /** A unit is generated exactly when its window is one of the sweep's and
      its area is in that window's expanded area list. */
  lemma {:induction false} UnitsOfRangesMembers(rs: seq<Range>, areas: seq<string>,
                                               hosts: Range -> seq<string>, u: Unit)
    ensures u in UnitsOfRanges(rs, areas, hosts) <==>
              exists i :: 0 <= i < |rs| && u.range == rs[i] && u.area in ExpandAreas(areas, hosts(rs[i]))
    decreases |rs|
  {
    if |rs| > 0 {
      UnitsOfRangesMembers(rs[1..], areas, hosts, u);
      UnitsOfMembers(rs[0], ExpandAreas(areas, hosts(rs[0])), u);
      assert UnitsOfRanges(rs, areas, hosts)
          == UnitsOf(rs[0], ExpandAreas(areas, hosts(rs[0]))) + UnitsOfRanges(rs[1..], areas, hosts);
      if u in UnitsOfRanges(rs[1..], areas, hosts) {
        var i :| 0 <= i < |rs[1..]| && u.range == rs[1..][i] && u.area in ExpandAreas(areas, hosts(rs[1..][i]));
        assert rs[i + 1] == rs[1..][i];
      }
      if exists i :: 1 <= i < |rs| && u.range == rs[i] && u.area in ExpandAreas(areas, hosts(rs[i])) {
        var i :| 1 <= i < |rs| && u.range == rs[i] && u.area in ExpandAreas(areas, hosts(rs[i]));
        assert rs[1..][i - 1] == rs[i];
      }
    }
  }

  /** Without `"each"`, every window contributes one unit per area, so
      an empty area list yields no units. */
  lemma {:induction false} UnitsOfRangesLength(rs: seq<Range>, areas: seq<string>, hosts: Range -> seq<string>)
    requires "each" !in areas
    ensures |UnitsOfRanges(rs, areas, hosts)| == |rs| * |areas|
    decreases |rs|
  {
    if |rs| > 0 {
      UnitsOfRangesLength(rs[1..], areas, hosts);
      assert (|rs| - 1) * |areas| + |areas| == |rs| * |areas|;
    }
  }

  /** Without `"each"`, the units form a grid: window by window in sweep
      order, and within a window one unit per configured area in list
      order, so unit `i·|areas| + j` is window `i` with area `j`. */
  lemma UnitsOfRangesAt(rs: seq<Range>, areas: seq<string>, hosts: Range -> seq<string>, i: nat, j: nat)
    requires "each" !in areas
    requires i < |rs| && j < |areas|
    ensures i * |areas| + j < |UnitsOfRanges(rs, areas, hosts)|
    ensures UnitsOfRanges(rs, areas, hosts)[i * |areas| + j] == Unit(rs[i], areas[j])
  {
    UnitsOfRangesAtOffset(rs, areas, hosts, i, j);
    OffsetIsProduct(i, |areas|);
  }

  /** The first unit of window `i` in a grid `n` wide. */
  function Offset(i: nat, n: nat): nat
  {
    if i == 0 then 0 else n + Offset(i - 1, n)
  }

  lemma {:induction false} OffsetIsProduct(i: nat, n: nat)
    ensures Offset(i, n) == i * n
  {
    if i > 0 {
      OffsetIsProduct(i - 1, n);
      assert i * n == (i - 1) * n + n;
    }
  }

  lemma {:induction false} UnitsOfRangesAtOffset(rs: seq<Range>, areas: seq<string>, hosts: Range -> seq<string>,
                                                 i: nat, j: nat)
    requires "each" !in areas
    requires i < |rs| && j < |areas|
    ensures Offset(i, |areas|) + j < |UnitsOfRanges(rs, areas, hosts)|
    ensures UnitsOfRanges(rs, areas, hosts)[Offset(i, |areas|) + j] == Unit(rs[i], areas[j])
    decreases i
  {
    if i > 0 {
      var k := Offset(i - 1, |areas|) + j;
      UnitsOfRangesAtOffset(rs[1..], areas, hosts, i - 1, j);
      UnitsOfRangesPastFirst(rs, areas, hosts, k);
      assert Offset(i, |areas|) + j == |areas| + k;
      calc {
        UnitsOfRanges(rs, areas, hosts)[|areas| + k];
        UnitsOfRanges(rs[1..], areas, hosts)[k];
        Unit(rs[1..][i - 1], areas[j]);
        { assert rs[1..][i - 1] == rs[i]; }
        Unit(rs[i], areas[j]);
      }
    } else {
      UnitsOfRangesInFirst(rs, areas, hosts, j);
    }
  }

  /** Without `"each"`, the first window's units come first, one per area. */
  lemma UnitsOfRangesInFirst(rs: seq<Range>, areas: seq<string>, hosts: Range -> seq<string>, j: nat)
    requires "each" !in areas
    requires 0 < |rs| && j < |areas|
    ensures j < |UnitsOfRanges(rs, areas, hosts)| && UnitsOfRanges(rs, areas, hosts)[j] == Unit(rs[0], areas[j])
  {
    var block := UnitsOf(rs[0], areas);
    assert UnitsOfRanges(rs, areas, hosts) == block + UnitsOfRanges(rs[1..], areas, hosts);
    assert (block + UnitsOfRanges(rs[1..], areas, hosts))[j] == block[j];
  }

  /** Without `"each"`, the later windows' units follow the first window's
      `|areas|` units. */
  lemma UnitsOfRangesPastFirst(rs: seq<Range>, areas: seq<string>, hosts: Range -> seq<string>, k: nat)
    requires "each" !in areas
    requires 0 < |rs| && k < |UnitsOfRanges(rs[1..], areas, hosts)|
    ensures |areas| + k < |UnitsOfRanges(rs, areas, hosts)|
    ensures UnitsOfRanges(rs, areas, hosts)[|areas| + k] == UnitsOfRanges(rs[1..], areas, hosts)[k]
  {
    var block := UnitsOf(rs[0], areas);
    var rest := UnitsOfRanges(rs[1..], areas, hosts);
    assert UnitsOfRanges(rs, areas, hosts) == block + rest;
    assert (block + rest)[|block| + k] == rest[k];
  }

  // ----------------------------------------------------------------- names

  /** The start-time part of a job name: date only when both ends of the
      window are whole dates, date and time otherwise. */
  function DtFilename(cal: Calendar, rg: Range): string
  {
    if IsIntDate(rg.start) && IsIntDate(rg.end) then FormatDate(cal, rg.start)
    else FormatDateTime(cal, rg.start)
  }

  /** The start-time part holds a `_` exactly when it carries a time, that
      is, unless both ends of the window are whole dates. */
  lemma DtFilenameForm(cal: Calendar, rg: Range)
    requires ValidCalendar(cal)
    ensures '_' in DtFilename(cal, rg) <==> !(IsIntDate(rg.start) && IsIntDate(rg.end))
  {
    var ds := cal.ymd(Day(rg.start));
    DigitsHaveNoUnderscore(ds);
    if !(IsIntDate(rg.start) && IsIntDate(rg.end)) {
      assert DtFilename(cal, rg)[|ds|] == '_';
    }
  }

  /** `jobname(args)`: `area_<start>`. */
  function JobName(cal: Calendar, u: Unit): string
  {
    u.area + "_" + DtFilename(cal, u.range)
  }

  /** `jobname2args(name, conf)`: the area is the text before the first
      `_`, the rest is the start time, and the end is the start plus the
      currently configured `unit_term`. A name without `_` or with an
      unreadable time fails. */
  function JobNameToArgs(cal: Calendar, term: int, name: string): (r: Option<Unit>)
    ensures r.Some? ==> '_' !in r.value.area
    ensures r.Some? ==> r.value.range.end == r.value.range.start + term
  {
    match SplitFirst(name, '_')
    case None => None
    case Some((area, dtstr)) =>
      match ShortStrToDt(cal, dtstr)
      case None => None
      case Some(dts) => Some(Unit(Range(dts, dts + term), area))
  }

  /** The time part of a job name reads back to the window's start. */
  lemma DtFilenameRoundTrip(cal: Calendar, rg: Range)
    requires ValidCalendar(cal)
    ensures ShortStrToDt(cal, DtFilename(cal, rg)) == Some(rg.start)
  {
    if IsIntDate(rg.start) && IsIntDate(rg.end) {
      ShortStrOfDate(cal, rg.start);
    } else {
      ShortStrOfDateTime(cal, rg.start);
    }
  }

  /** Under the `unit_term` its window has, the name of a unit whose area
      holds no `_` parses back to the unit. */
  lemma JobNameParsesBack(cal: Calendar, u: Unit)
    requires ValidCalendar(cal) && '_' !in u.area
    ensures JobNameToArgs(cal, u.range.end - u.range.start, JobName(cal, u)) == Some(u)
  {
    DtFilenameRoundTrip(cal, u.range);
    JobNameOfParsedStart(cal, u);
  }

  lemma JobNameOfParsedStart(cal: Calendar, u: Unit)
    requires '_' !in u.area && ShortStrToDt(cal, DtFilename(cal, u.range)) == Some(u.range.start)
    ensures JobNameToArgs(cal, u.range.end - u.range.start, JobName(cal, u)) == Some(u)
  {
    RebuiltFromWindow(u);
    JobNameOfParsedTime(cal, u.range.end - u.range.start, u, u.range.start);
  }

  /** A unit is the one rebuilt from its start, its length and its area. */
  lemma RebuiltFromWindow(u: Unit)
    ensures Unit(Range(u.range.start, u.range.start + (u.range.end - u.range.start)), u.area) == u
  {
  }

  /** A name whose time part reads back to `t` parses to the window
      starting at `t`. */
  lemma JobNameOfParsedTime(cal: Calendar, term: int, u: Unit, t: Time)
    requires '_' !in u.area && ShortStrToDt(cal, DtFilename(cal, u.range)) == Some(t)
    ensures JobNameToArgs(cal, term, JobName(cal, u)) == Some(Unit(Range(t, t + term), u.area))
  {
    var x := DtFilename(cal, u.range);
    assert JobName(cal, u) == u.area + "_" + x;
    ParsedOfJoin(cal, term, u.area, x, t);
  }

  lemma CutNameNotRecovered(cal: Calendar, term: int, u: Unit)
    requires '_' in u.area
    ensures JobNameToArgs(cal, term, JobName(cal, u)) != Some(u)
  {
  }

  lemma ParsedOfJoin(cal: Calendar, term: int, area: string, x: string, t: Time)
    requires '_' !in area && ShortStrToDt(cal, x) == Some(t)
    ensures JobNameToArgs(cal, term, area + "_" + x) == Some(Unit(Range(t, t + term), area))
  {
    assert area + "_" + x == area + ['_'] + x;
    SplitFirstOfJoin(area, '_', x);
  }

  /** A job name parses back to its unit exactly when the area contains no
      `_` and the window is `unit_term` long. An area with `_` is cut at its
      first `_`; a changed `unit_term` gives a different end. */
  lemma JobNameRoundTrip(cal: Calendar, term: int, u: Unit)
    requires ValidCalendar(cal)
    ensures JobNameToArgs(cal, term, JobName(cal, u)) == Some(u) <==>
              '_' !in u.area && u.range.end == u.range.start + term
  {
    if '_' !in u.area {
      WholeNameRecovered(cal, term, u);
    } else {
      CutNameNotRecovered(cal, term, u);
    }
  }

  lemma WholeNameRecovered(cal: Calendar, term: int, u: Unit)
    requires ValidCalendar(cal) && '_' !in u.area
    ensures JobNameToArgs(cal, term, JobName(cal, u)) == Some(u) <==> u.range.end == u.range.start + term
  {
    DtFilenameRoundTrip(cal, u.range);
    JobNameOfParsedTime(cal, term, u, u.range.start);
    var v := Unit(Range(u.range.start, u.range.start + term), u.area);
    assert v == u <==> u.range.end == u.range.start + term;
  }

  /** The units `all_args` makes for `"each"` are named `host_<h>`; their
      names read back with the area `host`, or not at all. */
  lemma HostAreaNameNotRecovered(cal: Calendar, term: int, rg: Range, h: string)
    ensures var r := JobNameToArgs(cal, term, JobName(cal, Unit(rg, "host_" + h)));
            r.None? || r.value.area == "host"
  {
    var name := JobName(cal, Unit(rg, "host_" + h));
    assert name == "host" + ['_'] + (h + "_" + DtFilename(cal, rg));
    SplitFirstOfJoin("host", '_', h + "_" + DtFilename(cal, rg));
  }

  /** A name depends only on the area, the start, and whether the end is a
      whole date: two units that agree on those share a name. */
  lemma JobNameIgnoresEnd(cal: Calendar, u1: Unit, u2: Unit)
    requires u1.area == u2.area && u1.range.start == u2.range.start
    requires IsIntDate(u1.range.end) == IsIntDate(u2.range.end)
    ensures JobName(cal, u1) == JobName(cal, u2)
  {
  }

  // --------------------------------------------------------------- queries

  /** `args_in_area(area)`. */
  function ArgsInArea(units: seq<Unit>, area: string): (r: seq<Unit>)
    ensures forall u :: u in r <==> u in units && u.area == area
  {
    Filter(units, (u: Unit) => u.area == area)
  }

  /** `args_in_time(dt_range)`. */
  function ArgsInTime(units: seq<Unit>, rg: Range): (r: seq<Unit>)
    ensures forall u :: u in r <==> u in units && u.range == rg
  {
    Filter(units, (u: Unit) => u.range == rg)
  }

  predicate Contains(rg: Range, t: Time)
  {
    rg.start <= t < rg.end
  }

  /** `args_from_time(dt)`: the units whose window contains `dt`. */
  function ArgsFromTime(units: seq<Unit>, t: Time): (r: seq<Unit>)
    ensures forall u :: u in r <==> u in units && Contains(u.range, t)
  {
    Filter(units, (u: Unit) => Contains(u.range, t))
  }

  /** The three queries keep every occurrence of a matching unit, duplicates
      included, and drop every other unit. */
  lemma QueriesKeepMultiplicity(units: seq<Unit>, area: string, rg: Range, t: Time, u: Unit)
    ensures multiset(ArgsInArea(units, area))[u] == if u.area == area then multiset(units)[u] else 0
    ensures multiset(ArgsInTime(units, rg))[u] == if u.range == rg then multiset(units)[u] else 0
    ensures multiset(ArgsFromTime(units, t))[u] == if Contains(u.range, t) then multiset(units)[u] else 0
  {
    FilterCounts(units, (v: Unit) => v.area == area);
    FilterCounts(units, (v: Unit) => v.range == rg);
    FilterCounts(units, (v: Unit) => Contains(v.range, t));
  }

  /** The three queries keep the list order: a query of a concatenation is
      the concatenation of the queries. */
  lemma QueriesKeepOrder(a: seq<Unit>, b: seq<Unit>, area: string, rg: Range, t: Time)
    ensures ArgsInArea(a + b, area) == ArgsInArea(a, area) + ArgsInArea(b, area)
    ensures ArgsInTime(a + b, rg) == ArgsInTime(a, rg) + ArgsInTime(b, rg)
    ensures ArgsFromTime(a + b, t) == ArgsFromTime(a, t) + ArgsFromTime(b, t)
  {
    FilterConcat(a, b, (u: Unit) => u.area == area);
    FilterConcat(a, b, (u: Unit) => u.range == rg);
    FilterConcat(a, b, (u: Unit) => Contains(u.range, t));
  }

  /** `areas()`. */
  function Areas(units: seq<Unit>): (r: set<string>)
    ensures forall a :: a in r <==> exists i :: 0 <= i < |units| && units[i].area == a
  {
    set u | u in units :: u.area
  }

  /** `iter_dt_range()`: each window of the list once. */
  function IterDtRange(units: seq<Unit>): (r: seq<Range>)
    ensures Distinct(r)
    ensures forall rg :: rg in r <==> exists i :: 0 <= i < |units| && units[i].range == rg
  {
    var rs := Map(units, (u: Unit) => u.range);
    assert forall rg :: rg in rs <==> exists i :: 0 <= i < |units| && units[i].range == rg by {
      forall rg | rg in rs
        ensures exists i :: 0 <= i < |units| && units[i].range == rg
      {
        var i :| 0 <= i < |rs| && rs[i] == rg;
      }
    }
    Dedup(rs)
  }

  // ------------------------------------------------------------ name list

  /** The job names of the units, in order. */
  function Names(cal: Calendar, units: seq<Unit>): (r: seq<string>)
    ensures |r| == |units|
    ensures forall i :: 0 <= i < |units| ==> r[i] == JobName(cal, units[i])
  {
    Map(units, u => JobName(cal, u))
  }

  /** `dump()`: the job names joined by `\n`. When no area holds a line
      break, reading the text back line by line, each line right-stripped,
      gives exactly one line per unit holding its name. */
  function Dump(cal: Calendar, units: seq<Unit>): (r: string)
    ensures ValidCalendar(cal) && (forall i :: 0 <= i < |units| ==> AreaOnOneLine(units[i].area)) ==>
              Map(FileLines(r), RStrip) == Names(cal, units)
  {
    NamesReadBack(cal, units);
    Join("\n", Names(cal, units))
  }

  lemma NamesReadBack(cal: Calendar, units: seq<Unit>)
    ensures ValidCalendar(cal) && (forall i :: 0 <= i < |units| ==> AreaOnOneLine(units[i].area)) ==>
              Map(FileLines(Join("\n", Names(cal, units))), RStrip) == Names(cal, units)
  {
    if ValidCalendar(cal) && (forall i :: 0 <= i < |units| ==> AreaOnOneLine(units[i].area)) {
      var names := Names(cal, units);
      forall i | 0 <= i < |names|
        ensures LineSafe(names[i])
      {
        JobNameLineSafe(cal, units[i]);
      }
      ReadBackJoinedLines(names);
    }
  }

  /** Parses each name in turn; fails if any name fails. */
  function ParseNames(cal: Calendar, term: int, names: seq<string>): (r: Option<seq<Unit>>)
    ensures r.Some? ==> |r.value| == |names|
    ensures r.Some? ==> forall i :: 0 <= i < |names| ==> JobNameToArgs(cal, term, names[i]) == Some(r.value[i])
    ensures r.None? <==> exists i :: 0 <= i < |names| && JobNameToArgs(cal, term, names[i]).None?
  {
    TryMap(names, NameParser(cal, term))
  }

  /** `jobname2args` as a function value. */
  function NameParser(cal: Calendar, term: int): string -> Option<Unit>
  {
    n => JobNameToArgs(cal, term, n)
  }

  /** `load()`: each line of the file, right-stripped, parsed as a name.
      What it yields: `LoadParses`. */
  function Load(cal: Calendar, term: int, text: string): Option<seq<Unit>>
  {
    ParseNames(cal, term, Map(FileLines(text), RStrip))
  }

  /** Loading fails exactly at a line whose right-stripped text is no job
      name; otherwise it gives one unit per line, each with a `_`-free area
      and a window of the configured term. */
  lemma LoadParses(cal: Calendar, term: int, text: string)
    ensures Load(cal, term, text).None? <==> SomeLineFails(cal, term, FileLines(text))
    ensures Load(cal, term, text).Some? ==> |Load(cal, term, text).value| == |FileLines(text)|
    ensures Load(cal, term, text).Some? ==>
              var us := Load(cal, term, text).value;
              forall i :: 0 <= i < |us| ==> '_' !in us[i].area && us[i].range.end == us[i].range.start + term
  {
    StrippedNamesParse(cal, term, FileLines(text));
  }

  /** Some line, right-stripped, is no job name. */
  predicate SomeLineFails(cal: Calendar, term: int, lines: seq<string>)
  {
    exists i :: 0 <= i < |lines| && JobNameToArgs(cal, term, RStrip(lines[i])).None?
  }

  /** Parsing right-stripped lines fails exactly at a line whose stripped
      text is no job name, and otherwise gives one unit per line, each
      spanning the term. */
  lemma StrippedNamesParse(cal: Calendar, term: int, lines: seq<string>)
    ensures ParseNames(cal, term, Map(lines, RStrip)).None? <==> SomeLineFails(cal, term, lines)
    ensures ParseNames(cal, term, Map(lines, RStrip)).Some? ==>
              |ParseNames(cal, term, Map(lines, RStrip)).value| == |lines|
    ensures ParseNames(cal, term, Map(lines, RStrip)).Some? ==>
              var us := ParseNames(cal, term, Map(lines, RStrip)).value;
              forall i :: 0 <= i < |us| ==> '_' !in us[i].area && us[i].range.end == us[i].range.start + term
  {
    var names := Map(lines, RStrip);
    var r := ParseNames(cal, term, names);
    if r.None? {
      var i :| 0 <= i < |names| && JobNameToArgs(cal, term, names[i]).None?;
      assert names[i] == RStrip(lines[i]);
    }
    if SomeLineFails(cal, term, lines) {
      var i :| 0 <= i < |lines| && JobNameToArgs(cal, term, RStrip(lines[i])).None?;
      assert names[i] == RStrip(lines[i]);
    }
  }

  /** An area that keeps its unit's name on one line. */
  predicate AreaOnOneLine(area: string)
  {
    forall k :: 0 <= k < |area| ==> !IsLineBreak(area[k])
  }

  lemma JobNameLineSafe(cal: Calendar, u: Unit)
    requires ValidCalendar(cal) && AreaOnOneLine(u.area)
    ensures LineSafe(JobName(cal, u))
  {
    DtFilenameChars(cal, u.range);
    JoinedLineSafe(u.area, DtFilename(cal, u.range));
  }

  /** The time part of a name holds only digits and `_`. */
  lemma DtFilenameChars(cal: Calendar, rg: Range)
    requires ValidCalendar(cal)
    ensures var x := DtFilename(cal, rg);
            forall k :: 0 <= k < |x| ==> IsDigit(x[k]) || x[k] == '_'
  {
    var ds := cal.ymd(Day(rg.start));
    assert AllDigits(ds);
    if !(IsIntDate(rg.start) && IsIntDate(rg.end)) {
      var ts := Hms(SecondOfDay(rg.start));
      var x := ds + "_" + ts;
      forall k | 0 <= k < |x|
        ensures IsDigit(x[k]) || x[k] == '_'
      {
        if k < |ds| {
          assert x[k] == ds[k];
        } else if k > |ds| {
          assert x[k] == ts[k - |ds| - 1];
        }
      }
    }
  }

  lemma JoinedLineSafe(area: string, x: string)
    requires AreaOnOneLine(area)
    requires forall k :: 0 <= k < |x| ==> IsDigit(x[k]) || x[k] == '_'
    ensures LineSafe(area + "_" + x)
  {
    var name := area + "_" + x;
    forall k | 0 <= k < |name|
      ensures !IsLineBreak(name[k])
    {
      if k > |area| {
        assert name[k] == x[k - |area| - 1];
      }
    }
    if |x| > 0 {
      assert name[|name| - 1] == x[|x| - 1];
    }
  }

  /** Saving a unit list and loading it back gives the same list exactly
      when every area is free of `_` and every window is `unit_term` long
      (for areas that keep the name on one line). */
  lemma {:induction false} DumpLoadRoundTrip(cal: Calendar, term: int, units: seq<Unit>)
    requires ValidCalendar(cal)
    requires forall i :: 0 <= i < |units| ==> AreaOnOneLine(units[i].area)
    ensures Load(cal, term, Dump(cal, units)) == Some(units) <==>
              forall i :: 0 <= i < |units| ==>
                '_' !in units[i].area && units[i].range.end == units[i].range.start + term
  {
    var names := Names(cal, units);
    assert Load(cal, term, Dump(cal, units)) == ParseNames(cal, term, names);
    forall i | 0 <= i < |units|
      ensures JobNameToArgs(cal, term, names[i]) == Some(units[i]) <==>
                '_' !in units[i].area && units[i].range.end == units[i].range.start + term
    {
      JobNameRoundTrip(cal, term, units[i]);
    }
    var r := ParseNames(cal, term, names);
    if forall i :: 0 <= i < |units| ==> '_' !in units[i].area && units[i].range.end == units[i].range.start + term {
      assert r.Some?;
      assert r.value == units;
    }
  }

  // ----------------------------------------------------------------- paths

  /** `_arg_dirname(output_dir, argname)`. */
  function ArgDirname(outputDir: string, argname: string): string
  {
    outputDir + "/" + argname
  }

  /** `args_path`: where the name list is saved, a file directly under the
      output root. */
  function ArgsPath(outputDir: string): (r: string)
    ensures |r| == |outputDir| + 5 && r[..|outputDir| + 1] == outputDir + "/"
    ensures r[|outputDir| + 1..] == "args" && '_' !in r[|outputDir| + 1..] && '/' !in r[|outputDir| + 1..]
  {
    assert (outputDir + "/args")[|outputDir| + 1..] == "args";
    outputDir + "/args"
  }

  /** The name list never collides with a unit's artifacts: no job name is
      `args`, since every job name holds a `_`, and every artifact path is
      longer than the list's path. */
  lemma ArgsFileApartFromUnits(outputDir: string, cal: Calendar, u: Unit, ext: string)
    ensures ArgDirname(outputDir, JobName(cal, u)) != ArgsPath(outputDir)
    ensures DagPath(outputDir, cal, u, ext, false) != Some(ArgsPath(outputDir))
    ensures EvdefPath(outputDir, cal, u, false) != Some(ArgsPath(outputDir))
  {
    var name := JobName(cal, u);
    var d := ArgDirname(outputDir, name);
    assert name[|u.area|] == '_';
    assert d[|outputDir| + 1..] == name;
    assert '_' in d[|outputDir| + 1..];
  }

  /** `dag_path(conf, args, ext)`; `None` when the unit's directory cannot be
      created. */
  function DagPath(outputDir: string, cal: Calendar, u: Unit, ext: string, mkdirFails: bool): (r: Option<string>)
    ensures r.None? <==> mkdirFails
    ensures r.Some? ==> |outputDir| + 1 <= |r.value| - |ext| - 5 && r.value[..|outputDir| + 1] == outputDir + "/"
    ensures r.Some? ==> r.value[|r.value| - |ext| - 5..] == "/dag." + ext
    ensures r.Some? && ValidCalendar(cal) && '_' !in u.area ==>
              JobNameToArgs(cal, u.range.end - u.range.start, r.value[|outputDir| + 1..|r.value| - |ext| - 5]) == Some(u)
  {
    if mkdirFails then None
    else
      var name := JobName(cal, u);
      var file := "/dag." + ext;
      assert ValidCalendar(cal) && '_' !in u.area ==>
               JobNameToArgs(cal, u.range.end - u.range.start, name) == Some(u) by {
        if ValidCalendar(cal) && '_' !in u.area {
          JobNameParsesBack(cal, u);
        }
      }
      PathParts(outputDir, name, file);
      Some(ArgDirname(outputDir, name) + file)
  }

  /** `evdef_path(args)`; `None` when the unit's directory cannot be
      created. */
  function EvdefPath(outputDir: string, cal: Calendar, u: Unit, mkdirFails: bool): (r: Option<string>)
    ensures r.None? <==> mkdirFails
    ensures r.Some? ==> |outputDir| + 1 <= |r.value| - 13 && r.value[..|outputDir| + 1] == outputDir + "/"
    ensures r.Some? ==> r.value[|r.value| - 13..] == "/evdef.pickle"
    ensures r.Some? && ValidCalendar(cal) && '_' !in u.area ==>
              JobNameToArgs(cal, u.range.end - u.range.start, r.value[|outputDir| + 1..|r.value| - 13]) == Some(u)
  {
    if mkdirFails then None
    else
      var name := JobName(cal, u);
      var file := "/evdef.pickle";
      assert ValidCalendar(cal) && '_' !in u.area ==>
               JobNameToArgs(cal, u.range.end - u.range.start, name) == Some(u) by {
        if ValidCalendar(cal) && '_' !in u.area {
          JobNameParsesBack(cal, u);
        }
      }
      PathParts(outputDir, name, file);
      Some(ArgDirname(outputDir, name) + file)
  }

  /** The DAG and the event definitions of a unit are written to different
      files, whatever the DAG's extension. */
  lemma DagApartFromEvdef(outputDir: string, cal: Calendar, u: Unit, ext: string)
    ensures DagPath(outputDir, cal, u, ext, false) != EvdefPath(outputDir, cal, u, false)
  {
    var k := |outputDir| + 1 + |JobName(cal, u)| + 1;
    assert DagPath(outputDir, cal, u, ext, false).value[k] == 'd';
    assert EvdefPath(outputDir, cal, u, false).value[k] == 'e';
  }

  /** The directory, the unit's name and the file can be cut back out of a
      path. */
  lemma PathParts(dir: string, name: string, file: string)
    ensures var p := ArgDirname(dir, name) + file;
            && |p| == |dir| + 1 + |name| + |file|
            && p[..|dir| + 1] == dir + "/"
            && p[|dir| + 1..|p| - |file|] == name
            && p[|p| - |file|..] == file
  {
    var p := ArgDirname(dir, name) + file;
    assert p == (dir + "/") + name + file;
  }

  lemma CancelAround(a: string, x: string, y: string, b: string)
    requires a + x + b == a + y + b
    ensures x == y
  {
    assert |x| == |y|;
    assert x == (a + x + b)[|a|..|a| + |x|];
    assert y == (a + y + b)[|a|..|a| + |y|];
  }

  /** The artifact paths of a unit are its job name's directory under the
      output root; two units share them exactly when they share a name. */
  lemma PathsKeyedByJobName(outputDir: string, cal: Calendar, u1: Unit, u2: Unit, ext: string)
    ensures (EvdefPath(outputDir, cal, u1, false) == EvdefPath(outputDir, cal, u2, false))
              == (JobName(cal, u1) == JobName(cal, u2))
    ensures (DagPath(outputDir, cal, u1, ext, false) == DagPath(outputDir, cal, u2, ext, false))
              == (JobName(cal, u1) == JobName(cal, u2))
  {
    var n1, n2 := JobName(cal, u1), JobName(cal, u2);
    if EvdefPath(outputDir, cal, u1, false) == EvdefPath(outputDir, cal, u2, false) {
      assert outputDir + "/" + n1 + "/evdef.pickle" == outputDir + "/" + n2 + "/evdef.pickle";
      CancelAround(outputDir + "/", n1, n2, "/evdef.pickle");
    }
    if DagPath(outputDir, cal, u1, ext, false) == DagPath(outputDir, cal, u2, ext, false) {
      assert outputDir + "/" + n1 + "/dag." + ext == outputDir + "/" + n2 + ("/dag." + ext);
      CancelAround(outputDir + "/", n1, n2, "/dag." + ext);
    }
  }

  /** Units whose areas are free of `_` and whose windows are `unit_term`
      long never share an artifact directory. */
  lemma DistinctUnitsDistinctPaths(outputDir: string, cal: Calendar, term: int, u1: Unit, u2: Unit)
    requires ValidCalendar(cal)
    requires '_' !in u1.area && u1.range.end == u1.range.start + term
    requires '_' !in u2.area && u2.range.end == u2.range.start + term
    requires u1 != u2
    ensures EvdefPath(outputDir, cal, u1, false) != EvdefPath(outputDir, cal, u2, false)
  {
    JobNameRoundTrip(cal, term, u1);
    JobNameRoundTrip(cal, term, u2);
    PathsKeyedByJobName(outputDir, cal, u1, u2, "");
  }
}

=== FILE: event_definitions.dfy ===
/** The event-definition registry (`EventDefinitionMap`): a forward map from
    integer event id to descriptor and a reverse map from descriptor to id,
    filled only by registration. Registration always takes a fresh id, even
    for a descriptor that is already registered. */
module EventDefinitions {
  import opened Wrappers
  import opened Strings
  import opened Seqs

  /** `EVDEF_KEYS`: the descriptor's attribute names, in rendering order. */
  const EvdefKeys: seq<string> := ["source", "host", "key", "group"]

  /** `EvDef`: an event descriptor, compared by value. An integer key (a log
      template id) is held in its decimal rendering. */
  datatype EvDef = EvDef(source: string, host: string, key: string, group: string)

  /** The descriptor's attribute values, in `EvdefKeys` order. */
  function Attrs(d: EvDef): seq<string>
  {
    [d.source, d.host, d.key, d.group]
  }

  datatype EventDefinitionMap = EventDefinitionMap(emap: map<nat, EvDef>, ermap: map<EvDef, nat>)

  /** A freshly constructed registry. */
  const Empty: EventDefinitionMap := EventDefinitionMap(map[], map[])

  /** `len(evmap)`: the number of ids handed out. */
  function Len(m: EventDefinitionMap): nat
  {
    |m.emap|
  }

  /** `eids()` / `iter_eid()`. */
  function Eids(m: EventDefinitionMap): set<nat>
  {
    m.emap.Keys
  }

  /** `iter_evdef()`. */
  function IterEvdef(m: EventDefinitionMap): set<EvDef>
  {
    m.ermap.Keys
  }

  predicate HasEid(m: EventDefinitionMap, eid: nat)
  {
    eid in m.emap
  }

  predicate HasEvdef(m: EventDefinitionMap, d: EvDef)
  {
    d in m.ermap
  }

  /** `evdef(eid)`; `None` is the KeyError of an unknown id. */
  function Evdef(m: EventDefinitionMap, eid: nat): (r: Option<EvDef>)
    ensures r.Some? <==> HasEid(m, eid)
  {
    if eid in m.emap then Some(m.emap[eid]) else None
  }

  /** `get_eid(evdef)`; `None` is the KeyError of an unknown descriptor. */
  function GetEid(m: EventDefinitionMap, d: EvDef): (r: Option<nat>)
    ensures r.Some? <==> HasEvdef(m, d)
  {
    if d in m.ermap then Some(m.ermap[d]) else None
  }

  /** The id search of `_next_eid`, from candidate `e` upwards. */
  function NextFrom(emap: map<nat, EvDef>, e: nat): (r: nat)
    ensures r >= e && r !in emap
    ensures forall k :: e <= k < r ==> k in emap
    decreases |set k | k in emap.Keys && k >= e|
  {
    if e in emap then
      var above := set k | k in emap.Keys && k >= e;
      var above' := set k | k in emap.Keys && k >= e + 1;
      assert above' == above - {e};
      NextFrom(emap, e + 1)
    else e
  }

  /** `_next_eid`: the first unused id at or above the registry's size. */
  function NextEid(m: EventDefinitionMap): (r: nat)
    ensures !HasEid(m, r)
    ensures r >= Len(m)
    ensures forall k :: Len(m) <= k < r ==> HasEid(m, k)
  {
    NextFrom(m.emap, |m.emap|)
  }

  /** `add_evdef(evdef)`: the registry after registration, and the id given. */
  function AddEvdef(m: EventDefinitionMap, d: EvDef): (r: (EventDefinitionMap, nat))
    ensures r.1 == NextEid(m)
    ensures Evdef(r.0, r.1) == Some(d) && GetEid(r.0, d) == Some(r.1)
    ensures Len(r.0) == Len(m) + 1
    ensures Eids(r.0) == Eids(m) + {r.1}
    ensures IterEvdef(r.0) == IterEvdef(m) + {d}
    ensures forall e :: HasEid(m, e) ==> Evdef(r.0, e) == Evdef(m, e)
    ensures forall d' :: d' != d ==> GetEid(r.0, d') == GetEid(m, d')
  {
    var eid := NextEid(m);
    var m' := EventDefinitionMap(m.emap[eid := d], m.ermap[d := eid]);
    InsertFresh(m.emap, eid, d);
    InsertAny(m.ermap, d, eid);
    (m', eid)
  }

  /** Inserting a fresh key grows the map by exactly that key. */
  lemma InsertFresh<K, V>(mp: map<K, V>, k: K, v: V)
    requires k !in mp
    ensures mp[k := v].Keys == mp.Keys + {k}
    ensures |mp[k := v]| == |mp| + 1
    ensures forall k' :: k' in mp ==> mp[k := v][k'] == mp[k']
  {
  }

  /** Inserting a key leaves every other key's entry as it was. */
  lemma InsertAny<K, V>(mp: map<K, V>, k: K, v: V)
    ensures mp[k := v].Keys == mp.Keys + {k}
    ensures forall k' :: k' != k ==> (k' in mp[k := v] <==> k' in mp)
    ensures forall k' :: k' != k && k' in mp ==> mp[k := v][k'] == mp[k']
  {
  }

  /** The forward and reverse maps are mutual inverses. */
  predicate Consistent(m: EventDefinitionMap)
  {
    && (forall e :: e in m.emap ==> m.emap[e] in m.ermap && m.ermap[m.emap[e]] == e)
    && (forall d :: d in m.ermap ==> m.ermap[d] in m.emap && m.emap[m.ermap[d]] == d)
  }

  /** Registering keeps the maps inverse exactly when the descriptor was not
      registered before: a repeated descriptor leaves its old id pointing at
      it while the reverse map moves on to the new id. */
  lemma AddEvdefConsistent(m: EventDefinitionMap, d: EvDef)
    requires Consistent(m)
    ensures Consistent(AddEvdef(m, d).0) <==> !HasEvdef(m, d)
  {
    var (m', e) := AddEvdef(m, d);
    assert m'.emap == m.emap[e := d] && m'.ermap == m.ermap[d := e];
    if HasEvdef(m, d) {
      var e0 := m.ermap[d];
      assert e0 != e;
      assert m'.emap[e0] == d && m'.ermap[d] == e;
    } else {
      forall k | k in m'.emap
        ensures m'.emap[k] in m'.ermap && m'.ermap[m'.emap[k]] == k
      {
        if k != e {
          assert m'.emap[k] == m.emap[k] != d;
        }
      }
      forall d' | d' in m'.ermap
        ensures m'.ermap[d'] in m'.emap && m'.emap[m'.ermap[d']] == d'
      {
        if d' != d {
          assert m'.ermap[d'] == m.ermap[d'] != e;
        }
      }
    }
  }

  /** The registry after registering `ds` in order, starting empty, and the
      ids handed out (the id-assignment loop of `makeinput`): ids 0, 1, 2,
      ... in order, id `i` naming `ds[i]`. */
  function Registered(ds: seq<EvDef>): (r: (EventDefinitionMap, seq<nat>))
    ensures |r.1| == |ds| && forall i :: 0 <= i < |ds| ==> r.1[i] == i
    ensures Len(r.0) == |ds|
    ensures forall e: nat :: HasEid(r.0, e) <==> e < |ds|
    ensures forall i :: 0 <= i < |ds| ==> Evdef(r.0, i) == Some(ds[i])
  {
    if |ds| == 0 then (Empty, [])
    else
      var n := |ds| - 1;
      var (m, es) := Registered(ds[..n]);
      assert !HasEid(m, n);
      var (m', e) := AddEvdef(m, ds[n]);
      assert e == n;
      assert forall k: nat :: HasEid(m', k) <==> HasEid(m, k) || k == n;
      (m', es + [e])
  }

  /** `i` is the last position of `ds` holding `ds[i]`. */
  predicate IsLastIndex(ds: seq<EvDef>, i: nat)
  {
    i < |ds| && forall j :: i < j < |ds| ==> ds[j] != ds[i]
  }

  /** After registering `ds` from empty, the reverse map knows exactly the
      descriptors of `ds`, each at the last position it was registered at. */
  lemma {:induction false} RegisteredReverse(ds: seq<EvDef>)
    ensures forall d :: HasEvdef(Registered(ds).0, d) <==> d in ds
    ensures forall d :: HasEvdef(Registered(ds).0, d) ==>
              IsLastIndex(ds, Registered(ds).0.ermap[d]) && ds[Registered(ds).0.ermap[d]] == d
    decreases |ds|
  {
    if |ds| > 0 {
      var n := |ds| - 1;
      var pre := ds[..n];
      RegisteredReverse(pre);
      var m := Registered(pre).0;
      assert Registered(ds).0 == AddEvdef(m, ds[n]).0;
      assert NextEid(m) == n by {
        assert Registered(ds).1[n] == n;
      }
      assert ds == pre + [ds[n]];
      ReverseStep(pre, ds[n], m);
    }
  }

  /** Registering `x` after `pre` into a map that knows `pre` at its last
      positions keeps the reverse map knowing each descriptor at its last
      position, when the new id is the next position. */
  lemma ReverseStep(pre: seq<EvDef>, x: EvDef, m: EventDefinitionMap)
    requires forall d :: HasEvdef(m, d) <==> d in pre
    requires forall d :: HasEvdef(m, d) ==> IsLastIndex(pre, m.ermap[d]) && pre[m.ermap[d]] == d
    requires NextEid(m) == |pre|
    ensures var m', ds := AddEvdef(m, x).0, pre + [x];
            && (forall d :: HasEvdef(m', d) <==> d in ds)
            && (forall d :: HasEvdef(m', d) ==> IsLastIndex(ds, m'.ermap[d]) && ds[m'.ermap[d]] == d)
  {
    var m', ds := AddEvdef(m, x).0, pre + [x];
    forall d | HasEvdef(m', d)
      ensures IsLastIndex(ds, m'.ermap[d]) && ds[m'.ermap[d]] == d
    {
      if d != x {
        assert GetEid(m', d) == GetEid(m, d);
      }
    }
    forall d
      ensures HasEvdef(m', d) <==> d in ds
    {
      assert d in ds <==> d in pre || d == x;
    }
  }

  /** Registering from empty yields mutually inverse maps exactly when the
      registered descriptors are pairwise distinct. */
  lemma RegisteredConsistent(ds: seq<EvDef>)
    ensures Consistent(Registered(ds).0) <==> Distinct(ds)
  {
    if Distinct(ds) {
      DistinctRegisteredConsistent(ds);
    } else {
      var i, j :| 0 <= i < j < |ds| && ds[i] == ds[j];
      RepeatedRegisteredInconsistent(ds, i, j);
    }
  }

  lemma DistinctRegisteredConsistent(ds: seq<EvDef>)
    requires Distinct(ds)
    ensures Consistent(Registered(ds).0)
  {
    RegisteredReverse(ds);
    var m := Registered(ds).0;
    forall e | e in m.emap
      ensures m.emap[e] in m.ermap && m.ermap[m.emap[e]] == e
    {
      assert HasEid(m, e);
      assert Evdef(m, e) == Some(ds[e]);
      assert HasEvdef(m, ds[e]);
      var j := m.ermap[ds[e]];
      assert ds[j] == ds[e];
    }
    forall d | d in m.ermap
      ensures m.ermap[d] in m.emap && m.emap[m.ermap[d]] == d
    {
      assert HasEvdef(m, d);
      var j := m.ermap[d];
      assert Evdef(m, j) == Some(ds[j]);
    }
  }

  lemma RepeatedRegisteredInconsistent(ds: seq<EvDef>, i: nat, j: nat)
    requires i < j < |ds| && ds[i] == ds[j]
    ensures !Consistent(Registered(ds).0)
  {
    RegisteredReverse(ds);
    var m := Registered(ds).0;
    assert Evdef(m, i) == Some(ds[i]);
    assert ds[i] in ds;
    var k := m.ermap[ds[i]];
    assert IsLastIndex(ds, k);
    assert k != i;
  }

  /** `"{0}={1}"` for each name/value pair. */
  function Assignments(names: seq<string>, values: seq<string>): (r: seq<string>)
    requires |names| == |values|
    ensures |r| == |names|
    ensures forall i :: 0 <= i < |r| ==> r[i] == names[i] + "=" + values[i]
  {
    if |names| == 0 then []
    else [names[0] + "=" + values[0]] + Assignments(names[1..], values[1..])
  }

  /** The rendering of a descriptor, spelled out field by field. */
  function Rendering(d: EvDef): string
  {
    "[source=" + d.source + ", host=" + d.host + ", key=" + d.key + ", group=" + d.group + "]"
  }

  /** `get_str(evdef)`: the attributes in `EvdefKeys` order, as
      `name=value` joined by `", "`, in square brackets. A descriptor whose
      attributes hold no comma reads back from its rendering. */
  function GetStr(d: EvDef): (r: string)
    ensures r == Rendering(d)
    ensures CommaFree(d) ==> ParseStr(r) == Some(d)
  {
    AssignmentsOfAttrs(d);
    JoinFour(", ", "source=" + d.source, "host=" + d.host, "key=" + d.key, "group=" + d.group);
    RenderingOfAssignments(d);
    RenderingParses(d);
    "[" + Join(", ", Assignments(EvdefKeys, Attrs(d))) + "]"
  }

  /** `evdef_str(eid)`. */
  function EvdefStr(m: EventDefinitionMap, eid: nat): (r: Option<string>)
    ensures r.Some? <==> HasEid(m, eid)
    ensures r.Some? ==> r.value == GetStr(m.emap[eid])
  {
    match Evdef(m, eid)
    case None => None
    case Some(d) => Some(GetStr(d))
  }

  lemma AssignmentsOfAttrs(d: EvDef)
    ensures Assignments(EvdefKeys, Attrs(d))
            == ["source=" + d.source, "host=" + d.host, "key=" + d.key, "group=" + d.group]
  {
    var a := Assignments(EvdefKeys, Attrs(d));
    assert a[0] == "source=" + d.source;
    assert a[1] == "host=" + d.host;
    assert a[2] == "key=" + d.key;
    assert a[3] == "group=" + d.group;
  }

  lemma RenderingOfAssignments(d: EvDef)
    ensures "[" + (("source=" + d.source) + ", " + ("host=" + d.host) + ", " + ("key=" + d.key)
                   + ", " + ("group=" + d.group)) + "]" == Rendering(d)
  {
  }

  lemma JoinFour(sep: string, a: string, b: string, c: string, d: string)
    ensures Join(sep, [a, b, c, d]) == a + sep + b + sep + c + sep + d
  {
    assert [a, b, c, d][1..] == [b, c, d];
    assert [b, c, d][1..] == [c, d];
    assert [c, d][1..] == [d];
    assert Join(sep, [c, d]) == c + sep + d;
    assert Join(sep, [b, c, d]) == b + sep + (c + sep + d);
    assert Join(sep, [a, b, c, d]) == a + sep + (b + sep + (c + sep + d));
  }

  /** Strips a literal prefix. */
  function DropPrefix(p: string, s: string): (r: Option<string>)
    ensures r.Some? <==> |p| <= |s| && s[..|p|] == p
    ensures r.Some? ==> s == p + r.value
  {
    if |p| <= |s| && s[..|p|] == p then Some(s[|p|..]) else None
  }

  /** Reads a rendering back into a descriptor: an independent inverse of
      `GetStr` for descriptors whose attributes contain no comma. */
  function ParseStr(s: string): Option<EvDef>
  {
    if |s| < 2 || s[0] != '[' || s[|s| - 1] != ']' then None
    else
      var parts := Split(s[1..|s| - 1], ',');
      if |parts| != 4 then None
      else
        match (DropPrefix("source=", parts[0]), DropPrefix(" host=", parts[1]),
               DropPrefix(" key=", parts[2]), DropPrefix(" group=", parts[3]))
        case (Some(src), Some(h), Some(k), Some(g)) => Some(EvDef(src, h, k, g))
        case _ => None
  }

  predicate CommaFree(d: EvDef)
  {
    ',' !in d.source && ',' !in d.host && ',' !in d.key && ',' !in d.group
  }

  /** The pieces a rendering splits into at its commas. */
  function Pieces(d: EvDef): seq<string>
  {
    ["source=" + d.source, " host=" + d.host, " key=" + d.key, " group=" + d.group]
  }

  lemma RenderingPieces(d: EvDef)
    ensures Rendering(d) == "[" + Join([','], Pieces(d)) + "]"
  {
    var p := Pieces(d);
    JoinFour([','], p[0], p[1], p[2], p[3]);
    assert p == [p[0], p[1], p[2], p[3]];
    RenderingOfPieces(d);
  }

  lemma RenderingOfPieces(d: EvDef)
    ensures "[" + (("source=" + d.source) + [','] + (" host=" + d.host) + [','] + (" key=" + d.key)
                   + [','] + (" group=" + d.group)) + "]" == Rendering(d)
  {
  }

  lemma PiecesCommaFree(d: EvDef)
    requires CommaFree(d)
    ensures forall i :: 0 <= i < |Pieces(d)| ==> ',' !in Pieces(d)[i]
  {
    assert ',' !in "source=" + d.source;
    assert ',' !in " host=" + d.host;
    assert ',' !in " key=" + d.key;
    assert ',' !in " group=" + d.group;
  }

  lemma DropPrefixOfConcat(p: string, x: string)
    ensures DropPrefix(p, p + x) == Some(x)
  {
    assert (p + x)[..|p|] == p;
  }

  lemma ParseOfPieces(s: string, d: EvDef)
    requires |s| >= 2 && s[0] == '[' && s[|s| - 1] == ']'
    requires Split(s[1..|s| - 1], ',') == Pieces(d)
    ensures ParseStr(s) == Some(d)
  {
    DropPrefixOfConcat("source=", d.source);
    DropPrefixOfConcat(" host=", d.host);
    DropPrefixOfConcat(" key=", d.key);
    DropPrefixOfConcat(" group=", d.group);
  }

  /** The rendering of a comma-free descriptor reads back to it. */
  lemma RenderingParses(d: EvDef)
    ensures CommaFree(d) ==> ParseStr(Rendering(d)) == Some(d)
  {
    if CommaFree(d) {
      var s := Rendering(d);
      assert |s| >= 2 && s[0] == '[' && s[|s| - 1] == ']' && s[1..|s| - 1] == Join([','], Pieces(d)) by {
        RenderingPieces(d);
      }
      PiecesCommaFree(d);
      SplitJoin(',', Pieces(d));
      ParseOfPieces(s, d);
    }
  }

  /** Distinct comma-free descriptors render differently. */
  lemma GetStrInjective(d1: EvDef, d2: EvDef)
    requires CommaFree(d1) && CommaFree(d2)
    ensures GetStr(d1) == GetStr(d2) <==> d1 == d2
  {
  }
}

=== FILE: evgen_log.dfy ===
/** The log event source (`source/evgen_log`): the descriptor of a log
    event, the loader's construction checks, the ordered filter pipeline
    applied to one event's timestamps, and the decision of which records
    `read` writes to the event store.

    The filter functions themselves live outside this model: `run(method,
    l, ev)` stands for `getattr(lf, method)(l, dt_range, ev)` with the
    current window captured in `run`. */
module EvgenLog {
  import opened Wrappers
  import opened Strings
  import opened TimeFormat

  /** `FEATURE_MEASUREMENT`. */
  const FeatureMeasurement: string := "log_feature"

  /** The measurement `read` writes raw timestamps to when asked to. */
  const OrgMeasurement: string := "log_org"

  /** The name of the filter whose failure means "keep everything". */
  const SizeTest: string := "sizetest"

  // ------------------------------------------------------------ descriptor

  /** `LogEventDefinition`: a log template (`gid`) seen on a host. */
  datatype LogEventDefinition = LogEventDefinition(source: string, host: string, group: string, gid: nat)

  /** `key()`: the template id in decimal. It reads back to the id, so two
      descriptors have the same key exactly when they have the same id. */
  function Key(d: LogEventDefinition): (r: string)
    ensures |r| >= 1 && AllDigits(r)
    ensures ParseDecimal(r) == Some(d.gid)
  {
    ParseDecimalOfDecimal(d.gid);
    Decimal(d.gid)
  }

  lemma KeyInjective(d1: LogEventDefinition, d2: LogEventDefinition)
    ensures Key(d1) == Key(d2) <==> d1.gid == d2.gid
  {
  }

  /** `tags()`: exactly the tags `host` and `key`. */
  function Tags(d: LogEventDefinition): (r: map<string, string>)
    ensures r.Keys == {"host", "key"}
    ensures r["host"] == d.host
    ensures ParseDecimal(r["key"]) == Some(d.gid)
  {
    map["host" := d.host, "key" := Key(d)]
  }

  /** `series()`: the measurement and tags that locate the event's data. */
  function Series(d: LogEventDefinition): (r: (string, map<string, string>))
    ensures r.0 == FeatureMeasurement
    ensures r.1.Keys == {"host", "key"}
    ensures r.1["host"] == d.host && ParseDecimal(r.1["key"]) == Some(d.gid)
  {
    (FeatureMeasurement, Tags(d))
  }

  /** Two descriptors locate the same series exactly when they agree on
      host and template id. */
  lemma SeriesIdentifiesEvent(d1: LogEventDefinition, d2: LogEventDefinition)
    ensures Series(d1) == Series(d2) <==> d1.host == d2.host && d1.gid == d2.gid
  {
    if Series(d1) == Series(d2) {
      assert Tags(d1)["key"] == Tags(d2)["key"];
    }
  }

  // ---------------------------------------------------------- construction

  datatype LoaderError = NotImplemented | AssertionFailed

  /** The part of a constructed loader this model keeps. */
  datatype LogEventLoader = LogEventLoader(rules: seq<string>, dry: bool)

  /** `LogEventLoader(conf, dry)`: only the `amulog` log source and the
      `influx` event store exist, and every configured filter rule must be
      one of the filter module's `functions`. The checks happen in that
      order. */
  function NewLoader(logSource: string, rules: seq<string>, evdb: string,
                     functions: set<string>, dry: bool): (r: Result<LogEventLoader, LoaderError>)
    ensures r.Success? <==>
              logSource == "amulog" && (forall i :: 0 <= i < |rules| ==> rules[i] in functions) && evdb == "influx"
    ensures r.Success? ==> r.value == LogEventLoader(rules, dry)
    ensures logSource != "amulog" ==> r == Failure(NotImplemented)
    ensures logSource == "amulog" && (exists i :: 0 <= i < |rules| && rules[i] !in functions) ==>
              r == Failure(AssertionFailed)
  {
    if logSource != "amulog" then Failure(NotImplemented)
    else if exists i :: 0 <= i < |rules| && rules[i] !in functions then Failure(AssertionFailed)
    else if evdb != "influx" then Failure(NotImplemented)
    else Success(LogEventLoader(rules, dry))
  }

  // ------------------------------------------------------- filter pipeline

  /** An event as `iter_event` yields it: `(host, gid)`. */
  datatype Event = Event(host: string, gid: nat)

  type FilterRun = (string, seq<Time>, Event) -> Option<seq<Time>>

  /** The pipeline from the current rule on; `orig` is the input before the
      first rule and `cur` the output of the previous one. */
  function ApplyFrom(run: FilterRun, rules: seq<string>, ev: Event, orig: seq<Time>, cur: seq<Time>): Option<seq<Time>>
  {
    if |rules| == 0 then Some(cur)
    else
      var next := run(rules[0], cur, ev);
      if rules[0] == SizeTest && next.None? then Some(orig)
      else if next.None? || |next.value| == 0 then None
      else ApplyFrom(run, rules[1..], ev, orig, next.value)
  }

  /** `_apply_filter(l_dt, dt_range, ev)`: the rules in configured order.
      The result is either the input itself or a non-empty filtered
      sequence; without rules it is the input unchanged. */
  function ApplyFilter(run: FilterRun, rules: seq<string>, ev: Event, l: seq<Time>): (r: Option<seq<Time>>)
    ensures rules == [] ==> r == Some(l)
    ensures r.Some? ==> r.value == l || |r.value| > 0
  {
    ApplyFromShape(run, rules, ev, l, l);
    ApplyFrom(run, rules, ev, l, l)
  }

  lemma {:induction false} ApplyFromShape(run: FilterRun, rules: seq<string>, ev: Event, orig: seq<Time>, cur: seq<Time>)
    ensures var r := ApplyFrom(run, rules, ev, orig, cur);
            r.Some? ==> r.value == orig || r.value == cur || |r.value| > 0
    decreases |rules|
  {
    if |rules| > 0 {
      var next := run(rules[0], cur, ev);
      if !(rules[0] == SizeTest && next.None?) && next.Some? && |next.value| > 0 {
        ApplyFromShape(run, rules[1..], ev, orig, next.value);
      }
    }
  }

  /** The reference semantics: the value after the first `k` rules when
      they are applied left to right with no early exit, a missing value
      staying missing. */
  function Stage(run: FilterRun, rules: seq<string>, ev: Event, l: seq<Time>, k: nat): Option<seq<Time>>
    requires k <= |rules|
  {
    if k == 0 then Some(l)
    else
      match Stage(run, rules, ev, l, k - 1)
      case None => None
      case Some(x) => run(rules[k - 1], x, ev)
  }

  /** Rule `k` hands a non-empty sequence to the next one. */
  predicate Passes(run: FilterRun, rules: seq<string>, ev: Event, l: seq<Time>, k: nat)
    requires k < |rules|
  {
    var s := Stage(run, rules, ev, l, k + 1);
    s.Some? && |s.value| > 0
  }

  /** Stages only depend on the rules already applied. */
  lemma {:induction false} StageOfPrefix(run: FilterRun, rules: seq<string>, more: seq<string>, ev: Event,
                                         l: seq<Time>, k: nat)
    requires k <= |rules|
    ensures Stage(run, rules + more, ev, l, k) == Stage(run, rules, ev, l, k)
  {
    if k > 0 {
      StageOfPrefix(run, rules, more, ev, l, k - 1);
      assert (rules + more)[k - 1] == rules[k - 1];
    }
  }

  lemma {:induction false} StageOfSuffix(run: FilterRun, rules: seq<string>, ev: Event, l: seq<Time>,
                                         i: nat, cur: seq<Time>, k: nat)
    requires i <= k <= |rules|
    requires Stage(run, rules, ev, l, i) == Some(cur)
    ensures Stage(run, rules[i..], ev, cur, k - i) == Stage(run, rules, ev, l, k)
    decreases k
  {
    if k > i {
      StageOfSuffix(run, rules, ev, l, i, cur, k - 1);
      assert rules[i..][k - 1 - i] == rules[k - 1];
    }
  }

  lemma {:induction false} ApplyFromAllPass(run: FilterRun, rules: seq<string>, ev: Event, orig: seq<Time>, cur: seq<Time>)
    requires forall j :: 0 <= j < |rules| ==> Passes(run, rules, ev, cur, j)
    ensures ApplyFrom(run, rules, ev, orig, cur) == Stage(run, rules, ev, cur, |rules|)
    decreases |rules|
  {
    if |rules| > 0 {
      assert Passes(run, rules, ev, cur, 0);
      var next := run(rules[0], cur, ev);
      assert Stage(run, rules, ev, cur, 1) == next;
      forall j | 0 <= j < |rules[1..]|
        ensures Passes(run, rules[1..], ev, next.value, j)
      {
        assert Passes(run, rules, ev, cur, j + 1);
        StageOfSuffix(run, rules, ev, cur, 1, next.value, j + 2);
      }
      ApplyFromAllPass(run, rules[1..], ev, orig, next.value);
      StageOfSuffix(run, rules, ev, cur, 1, next.value, |rules|);
    }
  }

  /** When every rule hands on a non-empty sequence, `_apply_filter` is the
      plain left-to-right composition of the rules. */
  lemma ApplyFilterAllPass(run: FilterRun, rules: seq<string>, ev: Event, l: seq<Time>)
    requires forall j :: 0 <= j < |rules| ==> Passes(run, rules, ev, l, j)
    ensures ApplyFilter(run, rules, ev, l) == Stage(run, rules, ev, l, |rules|)
  {
    ApplyFromAllPass(run, rules, ev, l, l);
  }

  lemma {:induction false} ApplyFromStops(run: FilterRun, rules: seq<string>, ev: Event, orig: seq<Time>,
                                          cur: seq<Time>, k: nat)
    requires k < |rules|
    requires forall j :: 0 <= j < k ==> Passes(run, rules, ev, cur, j)
    requires !Passes(run, rules, ev, cur, k)
    ensures ApplyFrom(run, rules, ev, orig, cur) ==
              if rules[k] == SizeTest && Stage(run, rules, ev, cur, k + 1).None? then Some(orig) else None
    decreases k
  {
    var next := run(rules[0], cur, ev);
    assert Stage(run, rules, ev, cur, 1) == next;
    if k > 0 {
      assert Passes(run, rules, ev, cur, 0);
      forall j | 0 <= j < k - 1
        ensures Passes(run, rules[1..], ev, next.value, j)
      {
        assert Passes(run, rules, ev, cur, j + 1);
        StageOfSuffix(run, rules, ev, cur, 1, next.value, j + 2);
      }
      StageOfSuffix(run, rules, ev, cur, 1, next.value, k + 1);
      ApplyFromStops(run, rules[1..], ev, orig, next.value, k - 1);
    }
  }

  /** The first rule that hands on nothing ends the pipeline: a failing
      `sizetest` gives back the original input, any other failure or an
      empty output drops the event. */
  lemma ApplyFilterStops(run: FilterRun, rules: seq<string>, ev: Event, l: seq<Time>, k: nat)
    requires k < |rules|
    requires forall j :: 0 <= j < k ==> Passes(run, rules, ev, l, j)
    requires !Passes(run, rules, ev, l, k)
    ensures ApplyFilter(run, rules, ev, l) ==
              if rules[k] == SizeTest && Stage(run, rules, ev, l, k + 1).None? then Some(l) else None
  {
    ApplyFromStops(run, rules, ev, l, l, k);
  }

  /** The rules after the stopping one are never run: appending any rules
      after it leaves the result unchanged. */
  lemma LaterRulesNotRun(run: FilterRun, rules: seq<string>, more: seq<string>, ev: Event, l: seq<Time>)
    requires |rules| > 0
    requires forall j :: 0 <= j < |rules| - 1 ==> Passes(run, rules, ev, l, j)
    requires !Passes(run, rules, ev, l, |rules| - 1)
    ensures ApplyFilter(run, rules + more, ev, l) == ApplyFilter(run, rules, ev, l)
  {
    var k := |rules| - 1;
    forall j | 0 <= j <= k
      ensures Passes(run, rules + more, ev, l, j) == Passes(run, rules, ev, l, j)
    {
      StageOfPrefix(run, rules, more, ev, l, j + 1);
    }
    StageOfPrefix(run, rules, more, ev, l, k + 1);
    ApplyFilterStops(run, rules + more, ev, l, k);
    ApplyFilterStops(run, rules, ev, l, k);
  }

  // ------------------------------------------------------------------ read

  /** One write to the event store: measurement, tags and timestamps. */
  datatype Record = Record(measure: string, host: string, gid: nat, values: seq<Time>)

  /** `dump(measure, host, gid, l_dt)`: nothing in a dry run. */
  function Dump(loader: LogEventLoader, measure: string, ev: Event, l: seq<Time>): seq<Record>
  {
    if loader.dry then [] else [Record(measure, ev.host, ev.gid, l)]
  }

  /** The records `read` writes for one event: at most the raw timestamps
      and the filtered ones, both about that event, and nothing for an event
      without timestamps. */
  function ReadEvent(loader: LogEventLoader, run: FilterRun, load: Event -> seq<Time>, dumpOrg: bool,
                     ev: Event): (r: seq<Record>)
    ensures |r| <= 2
    ensures |load(ev)| == 0 || loader.dry ==> r == []
    ensures forall k :: 0 <= k < |r| ==> r[k].host == ev.host && r[k].gid == ev.gid
    ensures forall k :: 0 <= k < |r| ==>
              || (r[k].measure == OrgMeasurement && dumpOrg && r[k].values == load(ev))
              || (r[k].measure == FeatureMeasurement && ApplyFilter(run, loader.rules, ev, load(ev)) == Some(r[k].values))
  {
    var l := load(ev);
    if |l| == 0 then []
    else
      (if dumpOrg then Dump(loader, OrgMeasurement, ev, l) else [])
      + (match ApplyFilter(run, loader.rules, ev, l)
         case None => []
         case Some(f) => Dump(loader, FeatureMeasurement, ev, f))
  }

  /** `read(dt_range, dump_org)`: the records written, event by event in
      `iter_event` order; `load` is the source's `load(ev)`. */
  function Read(loader: LogEventLoader, run: FilterRun, load: Event -> seq<Time>, dumpOrg: bool,
                events: seq<Event>): (r: seq<Record>)
    ensures |r| <= 2 * |events|
    ensures forall k :: 0 <= k < |r| ==> Event(r[k].host, r[k].gid) in events
  {
    if |events| == 0 then []
    else ReadEvent(loader, run, load, dumpOrg, events[0]) + Read(loader, run, load, dumpOrg, events[1..])
  }

  /** In a dry run nothing is written. */
  lemma {:induction false} ReadDry(loader: LogEventLoader, run: FilterRun, load: Event -> seq<Time>, dumpOrg: bool,
                                   events: seq<Event>)
    requires loader.dry
    ensures Read(loader, run, load, dumpOrg, events) == []
    decreases |events|
  {
    if |events| > 0 {
      ReadDry(loader, run, load, dumpOrg, events[1..]);
    }
  }

  /** A record is written exactly when some event of the sequence
      produces it on its own. */
  lemma {:induction false} ReadMembers(loader: LogEventLoader, run: FilterRun, load: Event -> seq<Time>,
                                       dumpOrg: bool, events: seq<Event>, rec: Record)
    ensures rec in Read(loader, run, load, dumpOrg, events) <==>
              exists i :: 0 <= i < |events| && rec in ReadEvent(loader, run, load, dumpOrg, events[i])
    decreases |events|
  {
    if |events| > 0 {
      ReadMembers(loader, run, load, dumpOrg, events[1..], rec);
      if exists i :: 1 <= i < |events| && rec in ReadEvent(loader, run, load, dumpOrg, events[i]) {
        var i :| 1 <= i < |events| && rec in ReadEvent(loader, run, load, dumpOrg, events[i]);
        assert events[1..][i - 1] == events[i];
      }
      if rec in Read(loader, run, load, dumpOrg, events[1..]) {
        var i :| 0 <= i < |events[1..]| && rec in ReadEvent(loader, run, load, dumpOrg, events[1..][i]);
        assert events[i + 1] == events[1..][i];
      }
    }
  }

  /** Outside a dry run, a feature record holding `f` is written for an
      event exactly when its raw timestamps are non-empty and the filter
      pipeline turns them into `f`; empty events are skipped. */
  lemma {:induction false} ReadFeatureRecords(loader: LogEventLoader, run: FilterRun, load: Event -> seq<Time>, dumpOrg: bool,
                           events: seq<Event>, ev: Event, f: seq<Time>)
    requires !loader.dry
    ensures Record(FeatureMeasurement, ev.host, ev.gid, f) in Read(loader, run, load, dumpOrg, events) <==>
              exists i :: 0 <= i < |events| && events[i] == ev && |load(ev)| > 0
                          && ApplyFilter(run, loader.rules, ev, load(ev)) == Some(f)
  {
    var rec := Record(FeatureMeasurement, ev.host, ev.gid, f);
    ReadMembers(loader, run, load, dumpOrg, events, rec);
    forall i | 0 <= i < |events|
      ensures rec in ReadEvent(loader, run, load, dumpOrg, events[i]) <==>
                events[i] == ev && |load(ev)| > 0 && ApplyFilter(run, loader.rules, ev, load(ev)) == Some(f)
    {
    }
  }

  /** Outside a dry run, the raw timestamps of an event are written exactly
      when `dump_org` is set and they are non-empty, whatever the filters
      decide. */
  lemma {:induction false} ReadOrgRecords(loader: LogEventLoader, run: FilterRun, load: Event -> seq<Time>, dumpOrg: bool,
                       events: seq<Event>, ev: Event)
    requires !loader.dry
    ensures Record(OrgMeasurement, ev.host, ev.gid, load(ev)) in Read(loader, run, load, dumpOrg, events) <==>
              dumpOrg && |load(ev)| > 0 && ev in events
  {
    var rec := Record(OrgMeasurement, ev.host, ev.gid, load(ev));
    ReadMembers(loader, run, load, dumpOrg, events, rec);
    forall i | 0 <= i < |events|
      ensures rec in ReadEvent(loader, run, load, dumpOrg, events[i]) <==>
                events[i] == ev && dumpOrg && |load(ev)| > 0
    {
    }
  }
}

=== FILE: log2event.dfy ===
/** The rest of `log2event`: the area test that decides which hosts enter an
    analysis unit, the SNMP name/tag codec, the binarize rule and the
    "empty column" skip, event selection per source, and `makeinput`, which
    registers the selected events in load order. */
module Log2Event {
  import opened Wrappers
  import opened Strings
  import opened Seqs
  import opened EventDefinitions

  // ---------------------------------------------------------------- AreaTest

  /** The three test methods of `AreaTest`. */
  datatype TestFunc = TestAll | TestEach | TestInGroup

  /** An `AreaTest`: the configured rule and the test method bound to
      `_testfunc` at construction, if one was. */
  datatype AreaTest = AreaTest(rule: string, testFunc: Option<TestFunc>)

  /** `AreaTest(conf)`: only the rule `"all"` binds a test method. */
  function NewAreaTest(rule: string): (a: AreaTest)
    ensures a.rule == rule
    ensures a.testFunc.Some? <==> rule == "all"
    ensures a.testFunc.Some? ==> a.testFunc.value == TestAll
  {
    AreaTest(rule, if rule == "all" then Some(TestAll) else None)
  }

  /** Runs one test method; `ingroup` is the area-definition table's
      membership test (`GroupDef.ingroup`). */
  function RunTest(f: TestFunc, area: string, host: string,
                   ingroup: (string, string) -> bool): bool
  {
    match f
    case TestAll => true
    case TestEach => area == host
    case TestInGroup => ingroup(area, host)
  }

  /** `test(area, host)`; `None` is the AttributeError raised when no test
      method was bound. */
  function Test(a: AreaTest, area: string, host: string,
                ingroup: (string, string) -> bool): (r: Option<bool>)
    ensures r.Some? <==> a.testFunc.Some?
  {
    match a.testFunc
    case None => None
    case Some(f) => Some(RunTest(f, area, host, ingroup))
  }

  /** With the rule `"all"` every host belongs to every area; with any other
      rule no test method is bound and every test fails. */
  lemma AreaTestByRule(rule: string, area: string, host: string,
                       ingroup: (string, string) -> bool)
    ensures rule == "all" ==> Test(NewAreaTest(rule), area, host, ingroup) == Some(true)
    ensures rule != "all" ==> Test(NewAreaTest(rule), area, host, ingroup) == None
  {
  }

  /** `_test_each` accepts a host exactly when it is the area itself. */
  lemma TestEachIsEquality(area: string, host: string, ingroup: (string, string) -> bool)
    ensures RunTest(TestEach, area, host, ingroup) <==> area == host
  {
  }

  // --------------------------------------------------------- SNMP codec

  /** `_snmp_tag2name(measure, key)`: the name holds one more `@` than its
      parts, and decodes back to them when they hold none. */
  function SnmpTagToName(measure: string, key: string): (r: string)
    ensures multiset(r)['@'] == multiset(measure)['@'] + multiset(key)['@'] + 1
    ensures '@' !in measure && '@' !in key ==> SnmpNameToTag(r) == Some((measure, key))
  {
    assert multiset(measure + "@" + key) == multiset(measure) + multiset("@") + multiset(key);
    JoinedAtDecodes(measure, key);
    measure + "@" + key
  }

  lemma JoinedAtDecodes(measure: string, key: string)
    ensures '@' !in measure && '@' !in key ==> SnmpNameToTag(measure + "@" + key) == Some((measure, key))
  {
    if '@' !in measure && '@' !in key {
      SplitJoin('@', [measure, key]);
      assert Join(['@'], [measure, key]) == measure + "@" + key;
    }
  }

  /** `_snmp_name2tag(name)`: splits at every `@`; unpacking into two names
      fails (ValueError, here `None`) unless there was exactly one. */
  function SnmpNameToTag(name: string): (r: Option<(string, string)>)
    ensures r.Some? <==> multiset(name)['@'] == 1
    ensures r.Some? ==> '@' !in r.value.0 && '@' !in r.value.1
  {
    var parts := Split(name, '@');
    if |parts| == 2 then Some((parts[0], parts[1])) else None
  }

  /** Encoding then decoding gives back the measure and key when neither
      contains `@`. */
  lemma SnmpNameTagRoundTrip(measure: string, key: string)
    requires '@' !in measure && '@' !in key
    ensures SnmpNameToTag(SnmpTagToName(measure, key)) == Some((measure, key))
  {
  }

  /** Every name that decodes is the encoding of what it decodes to. */
  lemma SnmpTagNameRoundTrip(name: string)
    requires SnmpNameToTag(name).Some?
    ensures SnmpTagToName(SnmpNameToTag(name).value.0, SnmpNameToTag(name).value.1) == name
  {
    JoinSplit(name, '@');
    var parts := Split(name, '@');
    assert Join(['@'], parts) == parts[0] + "@" + parts[1];
  }

  /** The event name `load_event_snmp_all` gives an SNMP event. */
  function SnmpEventName(measure: string, key: string): string
  {
    measure + "_" + key
  }

  /** The SNMP event names `makeinput` registers are joined with `_`, not
      `@`: such a name decodes exactly when measure and key together hold
      one `@`, which then does the splitting instead of the `_`. */
  lemma SnmpEventNameDecodes(measure: string, key: string)
    ensures SnmpNameToTag(SnmpEventName(measure, key)).Some? <==>
              multiset(measure)['@'] + multiset(key)['@'] == 1
  {
    assert multiset(SnmpEventName(measure, key)) == multiset(measure) + multiset("_") + multiset(key);
  }

  /** In particular, the name of an SNMP event whose measure and key hold
      no `@` never decodes. */
  lemma SnmpEventNameNotDecodable(measure: string, key: string)
    requires '@' !in measure && '@' !in key
    ensures SnmpNameToTag(SnmpEventName(measure, key)).None?
  {
    SnmpEventNameDecodes(measure, key);
  }

  // ---------------------------------------------------------------- binarize

  /** `df[df > 0] = 1` on one column. */
  function Binarize(col: seq<real>): (r: seq<real>)
    ensures |r| == |col|
    ensures forall i :: 0 <= i < |col| && col[i] > 0.0 ==> r[i] == 1.0
    ensures forall i :: 0 <= i < |col| && col[i] <= 0.0 ==> r[i] == col[i]
  {
    if |col| == 0 then []
    else [if col[0] > 0.0 then 1.0 else col[0]] + Binarize(col[1..])
  }

  /** Binarizing twice is binarizing once. */
  lemma BinarizeIdempotent(col: seq<real>)
    ensures Binarize(Binarize(col)) == Binarize(col)
  {
  }

  /** A column already holding only 0 and 1 is left as it is. */
  lemma BinarizeBinary(col: seq<real>)
    requires forall i :: 0 <= i < |col| ==> col[i] == 0.0 || col[i] == 1.0
    ensures Binarize(col) == col
  {
  }

  /** Binarized counts are presence flags. */
  lemma BinarizeCounts(col: seq<real>)
    requires forall i :: 0 <= i < |col| ==> col[i] >= 0.0
    ensures forall i :: 0 <= i < |col| ==> Binarize(col)[i] == 0.0 || Binarize(col)[i] == 1.0
    ensures Sum(Binarize(col)) == 0.0 <==> Sum(col) == 0.0
  {
    SumOfCounts(col);
    SumOfCounts(Binarize(col));
  }

  /** A column of counts sums to zero exactly when every count is zero. */
  lemma {:induction false} SumOfCounts(col: seq<real>)
    requires forall i :: 0 <= i < |col| ==> col[i] >= 0.0
    ensures Sum(col) >= 0.0
    ensures Sum(col) == 0.0 <==> forall i :: 0 <= i < |col| ==> col[i] == 0.0
  {
    if |col| > 0 {
      SumOfCounts(col[1..]);
      if Sum(col) == 0.0 {
        forall i | 0 <= i < |col|
          ensures col[i] == 0.0
        {
          if i > 0 {
            assert col[i] == col[1..][i - 1];
          }
        }
      }
    }
  }

  // ------------------------------------------------------ event selection

  /** The sources `makeinput` knows, and how each names its events. */
  datatype SourceKind = LogSource | SnmpSource

  /** One `(measure, host, key)` triple of a loader's `all_condition()`. */
  datatype Condition = Condition(measure: string, host: string, key: string)

  /** One event a loader yields: host, event name, group label and its
      column of per-bin values. */
  datatype Loaded = Loaded(host: string, key: string, group: string, column: seq<real>)

  /** The name and group label the loader gives a kept condition: a log
      event is named by its key and labelled from the key; an SNMP event is
      named `measure_key` and labelled from the measure. */
  function NameOf(kind: SourceKind, c: Condition): string
  {
    match kind
    case LogSource => c.key
    case SnmpSource => SnmpEventName(c.measure, c.key)
  }

  function LabelOf(kind: SourceKind, c: Condition, groupOf: string -> string): string
  {
    match kind
    case LogSource => groupOf(c.key)
    case SnmpSource => groupOf(c.measure)
  }

  /** A condition survives when its host is in the area and its loaded
      column exists and does not sum to zero. */
  predicate Kept(kind: SourceKind, at: AreaTest, area: string,
                 ingroup: (string, string) -> bool,
                 load: Condition -> Option<seq<real>>, c: Condition)
  {
    && Test(at, area, c.host, ingroup) == Some(true)
    && load(c).Some?
    && Sum(load(c).value) != 0.0
  }

  function ToLoaded(kind: SourceKind, load: Condition -> Option<seq<real>>,
                    groupOf: string -> string, binarize: bool, c: Condition): Loaded
    requires load(c).Some?
  {
    var col := load(c).value;
    Loaded(c.host, NameOf(kind, c), LabelOf(kind, c, groupOf),
           if binarize then Binarize(col) else col)
  }

  /** The sequential-binning paths of `load_event_log_all` and
      `load_event_snmp_all`: conditions in enumeration order, each tested
      against the area, loaded, skipped when missing or all-zero, and
      binarized on request. A failing area test fails the whole load. */
  function SelectEvents(kind: SourceKind, conds: seq<Condition>, at: AreaTest, area: string,
                        ingroup: (string, string) -> bool,
                        load: Condition -> Option<seq<real>>,
                        groupOf: string -> string, binarize: bool): (r: Option<seq<Loaded>>)
    ensures r.None? <==> |conds| > 0 && at.testFunc.None?
    ensures r.Some? ==> |r.value| <= |conds|
  {
    if |conds| == 0 then Some([])
    else
      var c := conds[0];
      var rest := SelectEvents(kind, conds[1..], at, area, ingroup, load, groupOf, binarize);
      match Test(at, area, c.host, ingroup)
      case None => None
      case Some(false) => rest
      case Some(true) =>
        if load(c).None? || Sum(load(c).value) == 0.0 then rest
        else Some([ToLoaded(kind, load, groupOf, binarize, c)] + rest.value)
  }

  /** The loaded events of conditions known to load. */
  function LoadedAll(kind: SourceKind, load: Condition -> Option<seq<real>>,
                     groupOf: string -> string, binarize: bool, cs: seq<Condition>): (r: seq<Loaded>)
    requires forall i :: 0 <= i < |cs| ==> load(cs[i]).Some?
    ensures |r| == |cs|
  {
    if |cs| == 0 then []
    else [ToLoaded(kind, load, groupOf, binarize, cs[0])] + LoadedAll(kind, load, groupOf, binarize, cs[1..])
  }

  /** Selection is the kept conditions, in enumeration order, each turned
      into its loaded event. */
  lemma {:induction false} SelectEventsIsFilterMap(kind: SourceKind, conds: seq<Condition>, at: AreaTest,
                                                   area: string, ingroup: (string, string) -> bool,
                                                   load: Condition -> Option<seq<real>>,
                                                   groupOf: string -> string, binarize: bool)
    requires at.testFunc.Some?
    ensures var kept := Filter(conds, c => Kept(kind, at, area, ingroup, load, c));
            SelectEvents(kind, conds, at, area, ingroup, load, groupOf, binarize)
            == Some(LoadedAll(kind, load, groupOf, binarize, kept))
    decreases |conds|
  {
    if |conds| > 0 {
      var keep := c => Kept(kind, at, area, ingroup, load, c);
      SelectEventsIsFilterMap(kind, conds[1..], at, area, ingroup, load, groupOf, binarize);
      var kept := Filter(conds, keep);
      var kept' := Filter(conds[1..], keep);
      assert kept == (if keep(conds[0]) then [conds[0]] else []) + kept';
      var rest := SelectEvents(kind, conds[1..], at, area, ingroup, load, groupOf, binarize);
      if keep(conds[0]) {
        assert kept[0] == conds[0] && kept[1..] == kept';
        assert LoadedAll(kind, load, groupOf, binarize, kept)
            == [ToLoaded(kind, load, groupOf, binarize, conds[0])] + LoadedAll(kind, load, groupOf, binarize, kept');
        assert SelectEvents(kind, conds, at, area, ingroup, load, groupOf, binarize)
            == Some([ToLoaded(kind, load, groupOf, binarize, conds[0])] + rest.value);
      } else {
        assert kept == kept';
        assert SelectEvents(kind, conds, at, area, ingroup, load, groupOf, binarize) == rest;
      }
    }
  }

  // ---------------------------------------------------------------- makeinput

  /** `load_event_all(src, ...)`: the events of the named source; any other
      source name raises NotImplementedError (`None`), as does a failing
      load of a known source. */
  function LoadEventAll(src: string, logEvents: Option<seq<Loaded>>,
                        snmpEvents: Option<seq<Loaded>>): Option<seq<Loaded>>
  {
    if src == "log" then logEvents
    else if src == "snmp" then snmpEvents
    else None
  }

  /** An event together with the source it came from. */
  datatype SourcedEvent = SourcedEvent(source: string, event: Loaded)

  function Descriptor(e: SourcedEvent): EvDef
  {
    EvDef(e.source, e.event.host, e.event.key, e.event.group)
  }

  /** Every event of every configured source, sources in configured order,
      each source's events in the order it yields them. */
  function AllEvents(sources: seq<string>, logEvents: Option<seq<Loaded>>,
                     snmpEvents: Option<seq<Loaded>>): (r: Option<seq<SourcedEvent>>)
    ensures r.None? <==> exists i :: 0 <= i < |sources| && LoadEventAll(sources[i], logEvents, snmpEvents).None?
  {
    if |sources| == 0 then Some([])
    else
      match (LoadEventAll(sources[0], logEvents, snmpEvents),
             AllEvents(sources[1..], logEvents, snmpEvents))
      case (Some(evs), Some(rest)) =>
        Some(seq(|evs|, i requires 0 <= i < |evs| => SourcedEvent(sources[0], evs[i])) + rest)
      case (None, _) => None
      case (_, None) =>
        assert forall i :: 1 <= i < |sources| ==> sources[i] == sources[1..][i - 1];
        None
  }

  /** A single source contributes its own events, in the order it yields
      them, each tagged with the source. */
  lemma AllEventsSingle(src: string, logEvents: Option<seq<Loaded>>, snmpEvents: Option<seq<Loaded>>)
    ensures AllEvents([src], logEvents, snmpEvents).Some? ==>
              var evs := LoadEventAll(src, logEvents, snmpEvents).value;
              && |AllEvents([src], logEvents, snmpEvents).value| == |evs|
              && forall i :: 0 <= i < |evs| ==>
                   AllEvents([src], logEvents, snmpEvents).value[i] == SourcedEvent(src, evs[i])
  {
    assert [src][1..] == [];
  }

  /** Gathering over two lists of sources is gathering over each in turn,
      so the events keep the configured order of their sources. */
  lemma {:induction false} AllEventsAppend(s1: seq<string>, s2: seq<string>,
                                           logEvents: Option<seq<Loaded>>, snmpEvents: Option<seq<Loaded>>)
    ensures AllEvents(s1 + s2, logEvents, snmpEvents).Some? ==>
              && AllEvents(s1, logEvents, snmpEvents).Some?
              && AllEvents(s2, logEvents, snmpEvents).Some?
              && AllEvents(s1 + s2, logEvents, snmpEvents).value
                 == AllEvents(s1, logEvents, snmpEvents).value + AllEvents(s2, logEvents, snmpEvents).value
    decreases |s1|
  {
    if |s1| == 0 {
      assert s1 + s2 == s2;
    } else {
      assert (s1 + s2)[0] == s1[0];
      assert (s1 + s2)[1..] == s1[1..] + s2;
      AllEventsAppend(s1[1..], s2, logEvents, snmpEvents);
    }
  }

  /** One column of the joint input table, labelled with its event id. */
  datatype Column = Column(eid: nat, values: seq<real>)

  /** `makeinput`: registers every loaded event in load order and labels its
      column with the id it was given. Concatenating no columns raises
      (`None`), as does an unknown or failing source. */
  function MakeInput(sources: seq<string>, logEvents: Option<seq<Loaded>>,
                     snmpEvents: Option<seq<Loaded>>): (r: Option<(seq<Column>, EventDefinitionMap)>)
    ensures r.Some? <==> AllEvents(sources, logEvents, snmpEvents).Some?
                         && |AllEvents(sources, logEvents, snmpEvents).value| > 0
    ensures r.Some? ==>
              var evs := AllEvents(sources, logEvents, snmpEvents).value;
              && |r.value.0| == |evs| == Len(r.value.1)
              && forall k :: 0 <= k < |evs| ==>
                   && r.value.0[k] == Column(k, evs[k].event.column)
                   && Evdef(r.value.1, k) == Some(Descriptor(evs[k]))
  {
    match AllEvents(sources, logEvents, snmpEvents)
    case None => None
    case Some(evs) =>
      if |evs| == 0 then None
      else
        var ds := seq(|evs|, i requires 0 <= i < |evs| => Descriptor(evs[i]));
        var (evmap, eids) := Registered(ds);
        Some((seq(|evs|, k requires 0 <= k < |evs| => Column(eids[k], evs[k].event.column)), evmap))
  }
}

=== FILE: seqs.dfy ===
/** Order-preserving list filters, duplicate removal and sums: the list
    comprehensions and `set(...)` conversions the modelled code uses. */
module Seqs {
  import opened Wrappers

  /** `[x for x in s if p(x)]`. */
  function Filter<T(!new)>(s: seq<T>, p: T -> bool): (r: seq<T>)
    ensures |r| <= |s|
    ensures forall i :: 0 <= i < |r| ==> p(r[i])
    ensures forall x :: x in r <==> x in s && p(x)
  {
    if |s| == 0 then []
    else
      assert s == [s[0]] + s[1..];
      (if p(s[0]) then [s[0]] else []) + Filter(s[1..], p)
  }

  /** A filter keeps every occurrence of a kept value and none of the others. */
  lemma {:induction false} FilterCounts<T(!new)>(s: seq<T>, p: T -> bool)
    ensures forall x :: multiset(Filter(s, p))[x] == if p(x) then multiset(s)[x] else 0
    decreases |s|
  {
    if |s| > 0 {
      FilterCounts(s[1..], p);
      assert s == [s[0]] + s[1..];
    }
  }

  /** Filtering distributes over concatenation, so the kept elements stay
      in their original relative order. */
  lemma {:induction false} FilterConcat<T(!new)>(a: seq<T>, b: seq<T>, p: T -> bool)
    ensures Filter(a + b, p) == Filter(a, p) + Filter(b, p)
    decreases |a|
  {
    if |a| > 0 {
      assert (a + b)[1..] == a[1..] + b;
      FilterConcat(a[1..], b, p);
    } else {
      assert a + b == b;
    }
  }

  predicate Distinct<T(==)>(s: seq<T>)
  {
    forall i, j :: 0 <= i < j < |s| ==> s[i] != s[j]
  }

  /** The distinct elements of `s`, each once, in first-occurrence order. */
  function Dedup<T(==,!new)>(s: seq<T>): (r: seq<T>)
    ensures Distinct(r)
    ensures forall x :: x in r <==> x in s
  {
    if |s| == 0 then []
    else
      var d := Dedup(s[..|s| - 1]);
      assert s == s[..|s| - 1] + [s[|s| - 1]];
      if s[|s| - 1] in d then d else d + [s[|s| - 1]]
  }

  /** Pointwise image of a sequence. */
  function Map<A, B>(s: seq<A>, f: A -> B): (r: seq<B>)
    ensures |r| == |s|
    ensures forall i :: 0 <= i < |s| ==> r[i] == f(s[i])
  {
    if |s| == 0 then [] else [f(s[0])] + Map(s[1..], f)
  }

  /** `[f(x) for x in s]` where `f` may raise: every element's image, or
      failure as soon as one element fails. */
  function TryMap<A, B>(s: seq<A>, f: A -> Option<B>): (r: Option<seq<B>>)
    ensures r.Some? ==> |r.value| == |s|
    ensures r.Some? ==> forall i :: 0 <= i < |s| ==> f(s[i]) == Some(r.value[i])
    ensures r.None? <==> exists i :: 0 <= i < |s| && f(s[i]).None?
  {
    if |s| == 0 then Some([])
    else
      match (f(s[0]), TryMap(s[1..], f))
      case (Some(y), Some(rest)) => Some([y] + rest)
      case (None, _) => None
      case (_, None) =>
        assert forall i :: 1 <= i < |s| ==> s[i] == s[1..][i - 1];
        None
  }

  /** `sum(s)` over numbers. */
  function Sum(s: seq<real>): real
  {
    if |s| == 0 then 0.0 else s[0] + Sum(s[1..])
  }

  /** `s.index(x)`: the first position holding `x`. */
  function FirstIndex<T(==)>(s: seq<T>, x: T): (i: nat)
    requires x in s
    ensures i < |s| && s[i] == x && x !in s[..i]
  {
    if s[0] == x then 0
    else
      var j := FirstIndex(s[1..], x);
      assert s[..j + 1] == [s[0]] + s[1..][..j];
      j + 1
  }

  /** `s.pop(s.index(x))`: `s` without the first occurrence of `x`. */
  function RemoveFirst<T(==)>(s: seq<T>, x: T): (r: seq<T>)
    requires x in s
    ensures |r| == |s| - 1
    ensures multiset(r) == multiset(s) - multiset{x}
  {
    var i := FirstIndex(s, x);
    assert s == s[..i] + [x] + s[i + 1..];
    s[..i] + s[i + 1..]
  }
}

=== FILE: strings.dfy ===
/** The few pieces of Python string behaviour the modelled code relies on:
    `str.split(sep)`, `str.split(sep, 1)`, `sep.join(xs)`, `str.rstrip()`,
    line iteration over a text file, and decimal rendering of integers. */
module Strings {
  import opened Wrappers
  import opened Seqs

  /** Index of the first character of `s` satisfying `p`, if any. */
  function IndexWhere(s: string, p: char -> bool): (r: Option<nat>)
    ensures r.None? <==> forall k :: 0 <= k < |s| ==> !p(s[k])
    ensures r.Some? ==> r.value < |s| && p(s[r.value])
    ensures r.Some? ==> forall k :: 0 <= k < r.value ==> !p(s[k])
  {
    if |s| == 0 then None
    else if p(s[0]) then Some(0)
    else match IndexWhere(s[1..], p)
      case None => None
      case Some(i) => Some(i + 1)
  }

  /** `s.split(c, 1)` unpacked into two names: Python raises ValueError
      (here `None`) when `c` does not occur. */
  function SplitFirst(s: string, c: char): (r: Option<(string, string)>)
    ensures r.None? <==> c !in s
    ensures r.Some? ==> s == r.value.0 + [c] + r.value.1 && c !in r.value.0
  {
    if |s| == 0 then None
    else
      assert s == [s[0]] + s[1..];
      if s[0] == c then Some(([], s[1..]))
      else
        match SplitFirst(s[1..], c)
        case None => None
        case Some((a, b)) => Some(([s[0]] + a, b))
  }

  /** Splitting at the first `c` is determined by the part before it. */
  lemma {:induction false} SplitFirstOfJoin(a: string, c: char, b: string)
    requires c !in a
    ensures SplitFirst(a + [c] + b, c) == Some((a, b))
    decreases |a|
  {
    var s := a + [c] + b;
    if |a| == 0 {
      assert s == [c] + b;
      assert s[1..] == b;
    } else {
      assert s[0] == a[0] && s[1..] == a[1..] + [c] + b;
      SplitFirstOfJoin(a[1..], c, b);
      assert [a[0]] + a[1..] == a;
    }
  }

  /** `s.split(c)`: the pieces between occurrences of `c`; never empty. */
  function Split(s: string, c: char): (r: seq<string>)
    ensures |r| >= 1
    ensures forall i :: 0 <= i < |r| ==> c !in r[i]
    ensures |r| == multiset(s)[c] + 1
    decreases |s|
  {
    match SplitFirst(s, c)
    case None => [s]
    case Some((a, b)) =>
      assert multiset(s)[c] == multiset(a)[c] + 1 + multiset(b)[c] by {
        assert s == a + [c] + b;
      }
      [a] + Split(b, c)
  }

  /** `sep.join(xs)`. */
  function Join(sep: string, xs: seq<string>): string
  {
    if |xs| == 0 then ""
    else if |xs| == 1 then xs[0]
    else xs[0] + sep + Join(sep, xs[1..])
  }

  /** Joining with a single separator character and splitting at it again
      gives back the pieces, provided no piece contains the separator. */
  lemma {:induction false} SplitJoin(c: char, xs: seq<string>)
    requires |xs| >= 1
    requires forall i :: 0 <= i < |xs| ==> c !in xs[i]
    ensures Split(Join([c], xs), c) == xs
    decreases |xs|
  {
    if |xs| == 1 {
      assert Join([c], xs) == xs[0];
    } else {
      var rest := Join([c], xs[1..]);
      var s := Join([c], xs);
      assert s == xs[0] + [c] + rest;
      SplitFirstOfJoin(xs[0], c, rest);
      assert Split(s, c) == [xs[0]] + Split(rest, c);
      assert forall i :: 0 <= i < |xs[1..]| ==> c !in xs[1..][i] by {
        forall i | 0 <= i < |xs[1..]|
          ensures c !in xs[1..][i]
        {
          assert xs[1..][i] == xs[i + 1];
        }
      }
      SplitJoin(c, xs[1..]);
      assert xs == [xs[0]] + xs[1..];
    }
  }

  /** Splitting at `c` and joining with `c` gives back the string. */
  lemma {:induction false} JoinSplit(s: string, c: char)
    ensures Join([c], Split(s, c)) == s
    decreases |s|
  {
    match SplitFirst(s, c)
    case None =>
    case Some((a, b)) =>
      JoinSplit(b, c);
      assert Split(s, c) == [a] + Split(b, c);
      assert Split(s, c)[1..] == Split(b, c);
  }

  /** Characters Python's `str.isspace()` accepts. */
  predicate IsSpace(c: char)
  {
    || ('\U{9}' <= c <= '\U{d}')
    || ('\U{1c}' <= c <= '\U{20}')
    || c == '\U{85}' || c == '\U{a0}' || c == '\U{1680}'
    || ('\U{2000}' <= c <= '\U{200a}')
    || c == '\U{2028}' || c == '\U{2029}' || c == '\U{202f}' || c == '\U{205f}' || c == '\U{3000}'
  }

  /** `s.rstrip()`: drop trailing whitespace. What it drops is all
      whitespace: `RStripDropsOnlySpace`. */
  function RStrip(s: string): (r: string)
    ensures r <= s
    ensures |r| > 0 ==> !IsSpace(r[|r| - 1])
  {
    if |s| > 0 && IsSpace(s[|s| - 1]) then RStrip(s[..|s| - 1]) else s
  }

  /** Every character `rstrip()` removes is whitespace, so the result is the
      longest prefix that does not end in whitespace. */
  lemma {:induction false} RStripDropsOnlySpace(s: string)
    ensures forall k :: |RStrip(s)| <= k < |s| ==> IsSpace(s[k])
    decreases |s|
  {
    if |s| > 0 && IsSpace(s[|s| - 1]) {
      var t := s[..|s| - 1];
      RStripDropsOnlySpace(t);
      forall k | |RStrip(s)| <= k < |s|
        ensures IsSpace(s[k])
      {
        if k < |t| {
          assert t[k] == s[k];
        }
      }
    }
  }

  /** Line terminators recognised when a text file is read with universal
      newlines: `\n`, `\r` and the pair `\r\n`. */
  predicate IsLineBreak(c: char)
  {
    c == '\n' || c == '\r'
  }

  /** The lines `for line in f` yields from a file holding `t`: each line
      keeps its terminator, translated to `\n`; the last line has none when
      the text does not end in a terminator. */
  function FileLines(t: string): (r: seq<string>)
    ensures t == "" <==> r == []
    decreases |t|
  {
    match IndexWhere(t, IsLineBreak)
    case None => if t == "" then [] else [t]
    case Some(i) =>
      var n := if t[i] == '\r' && i + 1 < |t| && t[i + 1] == '\n' then i + 2 else i + 1;
      [t[..i] + "\n"] + FileLines(t[n..])
  }

  /** A string is "line-safe" when it survives one trip through a text file
      as one line read back with `rstrip()`. */
  predicate LineSafe(x: string)
  {
    && |x| > 0
    && !IsSpace(x[|x| - 1])
    && forall k :: 0 <= k < |x| ==> !IsLineBreak(x[k])
  }

  lemma RStripLine(x: string)
    requires LineSafe(x)
    ensures RStrip(x + "\n") == x
    ensures RStrip(x) == x
  {
    assert (x + "\n")[..|x|] == x;
  }

  /** Writing names joined by `\n` and reading the file back line by line,
      each line right-stripped, recovers the names, provided each is
      line-safe. */
  lemma {:induction false} ReadBackJoinedLines(xs: seq<string>)
    requires forall i :: 0 <= i < |xs| ==> LineSafe(xs[i])
    ensures Map(FileLines(Join("\n", xs)), RStrip) == xs
    decreases |xs|
  {
    if |xs| == 0 {
    } else if |xs| == 1 {
      var x := xs[0];
      assert Join("\n", xs) == x;
      assert IndexWhere(x, IsLineBreak).None?;
      RStripLine(x);
    } else {
      var x := xs[0];
      var t := Join("\n", xs);
      var rest := Join("\n", xs[1..]);
      assert t == x + "\n" + rest;
      var i := IndexWhere(t, IsLineBreak);
      assert t[|x|] == '\n';
      assert i.Some? && i.value == |x|;
      assert t[..|x|] == x;
      assert t[|x| + 1..] == rest;
      assert FileLines(t) == [x + "\n"] + FileLines(rest);
      RStripLine(x);
      ReadBackJoinedLines(xs[1..]);
    }
  }

  predicate IsDigit(c: char)
  {
    '0' <= c <= '9'
  }

  predicate AllDigits(s: string)
  {
    forall k :: 0 <= k < |s| ==> IsDigit(s[k])
  }

  function DigitChar(d: nat): (c: char)
    requires d < 10
    ensures IsDigit(c)
  {
    ('0' as int + d) as char
  }

  function DigitValue(c: char): (d: nat)
    requires IsDigit(c)
    ensures d < 10 && DigitChar(d) == c
  {
    (c as int - '0' as int)
  }

  /** `str(n)` for a non-negative integer. */
  function Decimal(n: nat): (r: string)
    ensures |r| >= 1 && AllDigits(r)
  {
    if n < 10 then [DigitChar(n)] else Decimal(n / 10) + [DigitChar(n % 10)]
  }

  /** `int(s)` restricted to strings of decimal digits. */
  function ParseDecimal(s: string): (r: Option<nat>)
    ensures r.Some? <==> |s| >= 1 && AllDigits(s)
  {
    if |s| == 0 || !AllDigits(s) then None
    else if |s| == 1 then Some(DigitValue(s[0]))
    else
      assert AllDigits(s[..|s| - 1]);
      Some(ParseDecimal(s[..|s| - 1]).value * 10 + DigitValue(s[|s| - 1]))
  }

  lemma {:induction false} ParseDecimalOfDecimal(n: nat)
    ensures ParseDecimal(Decimal(n)) == Some(n)
  {
    if n >= 10 {
      var s := Decimal(n);
      assert s[..|s| - 1] == Decimal(n / 10);
      ParseDecimalOfDecimal(n / 10);
    }
  }

  /** Two-digit zero-padded rendering, as `%H`, `%M` and `%S` produce. */
  function Pad2(n: nat): (r: string)
    requires n < 100
    ensures |r| == 2 && AllDigits(r)
  {
    [DigitChar(n / 10), DigitChar(n % 10)]
  }

  function Value2(s: string): (n: nat)
    requires |s| == 2 && AllDigits(s)
    ensures n < 100
  {
    DigitValue(s[0]) * 10 + DigitValue(s[1])
  }

  lemma Value2OfPad2(n: nat)
    requires n < 100
    ensures Value2(Pad2(n)) == n
  {
    assert DigitValue(DigitChar(n / 10)) == n / 10;
    assert DigitValue(DigitChar(n % 10)) == n % 10;
  }
}

=== FILE: time_format.dfy ===
/** Timestamps as whole seconds, the whole-date test, and the two
    renderings a job name uses for its start time (`%Y%m%d` and
    `%Y%m%d_%H%M%S`), together with the parser that reads them back.

    How a day number becomes a calendar date is the one part left abstract:
    a `Calendar` supplies the `%Y%m%d` rendering and its parser, and
    `ValidCalendar` states what the model needs of it. */
module TimeFormat {
  import opened Wrappers
  import opened Strings

  /** A timestamp: whole seconds since the epoch. */
  type Time = int

  /** The day a timestamp falls on (floor division by the 86400 seconds of
      a day, as datetime arithmetic). The length of a day is written as a
      literal so that the solver sees the arithmetic as linear. */
  function Day(t: Time): int
  {
    t / 86400
  }

  function SecondOfDay(t: Time): (s: nat)
    ensures s < 86400
    ensures t == Day(t) * 86400 + s
  {
    t % 86400
  }

  /** `dtutil.is_intdate`: the timestamp lies exactly on a midnight. */
  predicate IsIntDate(t: Time)
  {
    SecondOfDay(t) == 0
  }

  /** The `%Y%m%d` rendering of a day number and its parser. */
  datatype Calendar = Calendar(ymd: int -> string, parseYmd: string -> Option<int>)

  /** A calendar renders every day as digits and parses every rendering
      back to its day. */
  ghost predicate ValidCalendar(cal: Calendar)
  {
    && (forall d :: AllDigits(cal.ymd(d)))
    && (forall d :: cal.parseYmd(cal.ymd(d)) == Some(d))
  }

  /** `%H%M%S` of a second of the day. */
  function Hms(s: nat): (r: string)
    requires s < 86400
    ensures |r| == 6 && AllDigits(r)
  {
    Pad2(s / 3600) + Pad2(s % 3600 / 60) + Pad2(s % 60)
  }

  /** Reads six digits `HHMMSS` back into a second of the day. */
  function ParseHms(s: string): (r: Option<nat>)
    ensures r.Some? ==> r.value < 86400
  {
    if |s| == 6 && AllDigits(s) then
      var h, m, sec := Value2(s[0..2]), Value2(s[2..4]), Value2(s[4..6]);
      if h < 24 && m < 60 && sec < 60 then Some(h * 3600 + m * 60 + sec) else None
    else None
  }

  lemma ParseHmsOfHms(s: nat)
    requires s < 86400
    ensures ParseHms(Hms(s)) == Some(s)
  {
    var h, m, x := s / 3600, s % 3600 / 60, s % 60;
    HmsParts(s);
    var r := Hms(s);
    assert r == Pad2(h) + Pad2(m) + Pad2(x);
    assert r[0..2] == Pad2(h) && r[2..4] == Pad2(m) && r[4..6] == Pad2(x);
    Value2OfPad2(h);
    Value2OfPad2(m);
    Value2OfPad2(x);
  }

  /** Hours, minutes and seconds of a second of the day recombine to it. */
  lemma HmsParts(s: nat)
    requires s < 86400
    ensures s / 3600 < 24 && s % 3600 / 60 < 60 && s % 60 < 60
    ensures (s / 3600) * 3600 + (s % 3600 / 60) * 60 + s % 60 == s
  {
    var h, rest := s / 3600, s % 3600;
    var m, x := rest / 60, rest % 60;
    assert s == h * 3600 + rest;
    assert rest == m * 60 + x;
    assert s == (h * 60 + m) * 60 + x;
    assert s / 60 == h * 60 + m;
  }

  /** `dt.strftime("%Y%m%d")`. */
  function FormatDate(cal: Calendar, t: Time): string
  {
    cal.ymd(Day(t))
  }

  /** `dt.strftime("%Y%m%d_%H%M%S")`. */
  function FormatDateTime(cal: Calendar, t: Time): string
  {
    cal.ymd(Day(t)) + "_" + Hms(SecondOfDay(t))
  }

  /** `dtutil.shortstr2dt`: a date-only string names that day's midnight; a
      date and a time joined by `_` name that second. */
  function ShortStrToDt(cal: Calendar, s: string): Option<Time>
  {
    match SplitFirst(s, '_')
    case None =>
      (match cal.parseYmd(s)
       case None => None
       case Some(d) => Some(d * 86400))
    case Some((ds, ts)) =>
      (match (cal.parseYmd(ds), ParseHms(ts))
       case (Some(d), Some(x)) => Some(d * 86400 + x)
       case _ => None)
  }

  /** A date-only string fails exactly when the date does not parse, and
      otherwise names that day's midnight; a date and a time joined by `_`
      name the second whose day and time of day are the parsed parts. */
  lemma ShortStrToDtParts(cal: Calendar, s: string)
    ensures var r := ShortStrToDt(cal, s);
            && (SplitFirst(s, '_').None? ==> (r.None? <==> cal.parseYmd(s).None?))
            && (r.Some? && SplitFirst(s, '_').None? ==>
                  IsIntDate(r.value) && cal.parseYmd(s) == Some(Day(r.value)))
            && (r.Some? && SplitFirst(s, '_').Some? ==>
                  && cal.parseYmd(SplitFirst(s, '_').value.0) == Some(Day(r.value))
                  && ParseHms(SplitFirst(s, '_').value.1) == Some(SecondOfDay(r.value)))
  {
    match SplitFirst(s, '_')
    case None =>
      if cal.parseYmd(s).Some? {
        DayAndSecond(cal.parseYmd(s).value, 0);
      }
    case Some((ds, ts)) =>
      if cal.parseYmd(ds).Some? && ParseHms(ts).Some? {
        DayAndSecond(cal.parseYmd(ds).value, ParseHms(ts).value);
      }
  }

  /** A day and a second of that day name one timestamp, from which both
      read back. */
  lemma DayAndSecond(d: int, x: nat)
    requires x < 86400
    ensures Day(d * 86400 + x) == d && SecondOfDay(d * 86400 + x) == x
  {
    var t := d * 86400 + x;
    var q := Day(t);
    assert t == q * 86400 + SecondOfDay(t);
    assert (q - d) * 86400 == x - SecondOfDay(t);
  }

  lemma DigitsHaveNoUnderscore(s: string)
    requires AllDigits(s)
    ensures '_' !in s
  {
  }

  /** The fine rendering always reads back to the same second. */
  lemma ShortStrOfDateTime(cal: Calendar, t: Time)
    requires ValidCalendar(cal)
    ensures ShortStrToDt(cal, FormatDateTime(cal, t)) == Some(t)
  {
    var ds := cal.ymd(Day(t));
    var ts := Hms(SecondOfDay(t));
    DigitsHaveNoUnderscore(ds);
    SplitFirstOfJoin(ds, '_', ts);
    assert FormatDateTime(cal, t) == ds + ['_'] + ts;
    ParseHmsOfHms(SecondOfDay(t));
    assert cal.parseYmd(ds) == Some(Day(t));
    assert Day(t) * 86400 + SecondOfDay(t) == t;
  }

  /** The date-only rendering reads back to the midnight starting the day,
      which is the timestamp itself exactly when it is a whole date. */
  lemma ShortStrOfDate(cal: Calendar, t: Time)
    requires ValidCalendar(cal)
    ensures ShortStrToDt(cal, FormatDate(cal, t)) == Some(Day(t) * 86400)
    ensures ShortStrToDt(cal, FormatDate(cal, t)) == Some(t) <==> IsIntDate(t)
  {
    DigitsHaveNoUnderscore(cal.ymd(Day(t)));
  }
}

=== FILE: wrappers.dfy ===
/** Failure-carrying result types shared by every module of the model.
    A Python exception raised by the modelled code becomes `None` (when the
    caller only needs to know that it failed) or `Failure(e)` (when the kind
    of exception matters). */
module Wrappers {

  datatype Option<+T> = None | Some(value: T)

  datatype Result<+R, +E> = Success(value: R) | Failure(error: E)
}
